=== FILE: README.md ===
# Firmadyne wrapper: a Dafny model of the orchestration core

The Firmadyne analysis plugin runs a standalone wrapper script.
The script takes one firmware image and does three things:

- It prepares the image for emulation in five stages: extraction, architecture
  detection, filesystem load, QEMU image creation and network inference.
- It starts the emulator, probes the inferred address once, and hands the result
  dictionary to the analysis step.
- It records a summary under `'result'`, writes the dictionary to `results.json`,
  and runs the cleanup scripts before and after the run.

The model covers that orchestration: the order in which the steps run, where the run
stops, and which keys and values end up in the ordered result dictionary.

Every effect on the outside world is replaced by two things:

- The answers come from a fixed `Oracle` record. It holds the exit codes, the
  file-existence checks, the text pexpect matched, the ping outcome and the
  analysis verdict.
- Every command that would run is recorded as an event in a `Command` trace.

Each operation is a pure function that returns its status, the dictionary and the
commands it ran.

Modules:

- `Values`: `Option`, the two-valued `ResultType`, and dictionary values (a status
  or a text).
- `OrderedDict`: the result dictionary as a sequence of pairs. `Update` follows
  `OrderedDict.__setitem__`: a present key keeps its position and gets the new
  value; a new key is appended. `UpdateAll` follows `OrderedDict.update` with a
  literal.
- `Text`: Python's `str.split` on a one-character separator with its inverse
  `Join`, and the substring test `t in s` with a reference definition.
- `Externals`: the command events and the oracle.
- `Stages`: the five stage functions of `firmadyne_wrapper.py`, each returning its
  dictionary literal.
- `Preparation`: `prepare_emulation` as a generic short-circuit runner over the
  five stage results.
- `Emulation`: `start_emulation`, `start_emulation_process_parallel` and
  `network_is_available`.
- `Wrapper`: `execute_firmadyne`, `firmadyne`, `clean_firmadyne` and `main`.

`main` runs `clean_firmadyne` before `firmadyne`, so delete.sh runs even when the
input file is missing. `Wrapper.MainMissingInput` states this: such an invocation
runs only the two cleanups around the report write.

## Model

| member | source | states |
|---|---|---|
| `OrderedDict.Get` | internal/steps/emulation.py:11 | a lookup finds a value exactly when the key is present |
| `OrderedDict.GetAt` | internal/steps/emulation.py:11 | in a dictionary without repeated keys, `d[k]` is the value stored next to `k` |
| `OrderedDict.Update` | internal/firmadyne_wrapper.py:19-21 | after `d[k] = v`, `d[k]` reads `v` and every other key keeps its value; a present key keeps its position and the length stays the same; a new key is appended at the end |
| `OrderedDict.UpdateWf` | internal/firmadyne_wrapper.py:19-21 | a single assignment never creates a duplicate key |
| `OrderedDict.UpdateAll` | internal/firmadyne_wrapper.py:48 | `d.update(e)` writes the pairs of `e` one after the other with `Update`; its behaviour is stated by `UpdateAllFresh`, `UpdateAllAppend`, `UpdateAllGet` and `UpdateAllWf` |
| `OrderedDict.UpdateAllFresh` | internal/firmadyne_wrapper.py:46-72 | updating with a literal whose keys are all new appends the literal in its own order |
| `OrderedDict.UpdateAllAppend` | internal/firmadyne_wrapper.py:46-72 | two successive `update` calls equal one `update` with the concatenated literal |
| `OrderedDict.UpdateAllGet` | internal/steps/emulation.py:12-14 | after `d.update(e)` a key of `e` reads its value in `e`, and any other key reads its old value |
| `OrderedDict.UpdateAllWf` | internal/firmadyne_wrapper.py:46-72 | `update` never creates a duplicate key |
| `OrderedDict.WfKeys` | internal/firmadyne_wrapper.py:27 | a dictionary has no repeated key exactly when its key sequence has none |
| `OrderedDict.HasKeyKeys` | internal/steps/emulation.py:11 | a key is present exactly when it is among the listed keys, in both directions |
| `OrderedDict.HasFailureAppend` | internal/firmadyne_wrapper.py:34 | `FAILURE in d.values()` after appending holds exactly when it held in one of the two parts |
| `Text.Split` | internal/firmadyne_wrapper.py:82 | `split` always yields at least one piece, and no piece contains the separator |
| `Text.JoinSplit` | internal/firmadyne_wrapper.py:82 | joining the pieces of a split with the separator gives back the original text |
| `Text.SplitJoin` | internal/firmadyne_wrapper.py:82 | splitting a join of separator-free pieces gives back the pieces |
| `Text.SplitCount` | internal/firmadyne_wrapper.py:82 | there is exactly one more piece than there are separators |
| `Text.SecondFieldExists` | internal/firmadyne_wrapper.py:82 | piece `[1]` exists exactly when the text contains the separator |
| `Text.SecondFieldBetween` | internal/firmadyne_wrapper.py:82 | piece `[1]` is exactly the text between the first and the second separator |
| `Text.Contains` | internal/steps/emulation.py:28 | `t in s` as a scan from the left; `ContainsIsSubstring` proves it agrees with the occurrence definition |
| `Text.ContainsIsSubstring` | internal/steps/emulation.py:28 | the left-to-right scan finds `t` in `s` exactly when `t` occurs at some position of `s` |
| `Stages.ExtractImage` | internal/firmadyne_wrapper.py:117-126 | a missing input runs nothing and fails with the invalid-path message; otherwise the extractor runs once, and the stage succeeds exactly when it exits 0 and the archive exists; a zero exit without the archive gives the cannot-extract message, and a non-zero exit gives the extraction-script error message |
| `Stages.StoreArchitecture` | internal/firmadyne_wrapper.py:108-114 | getArch.sh runs once; the stage fails exactly when its exit code is strictly positive |
| `Stages.LoadFilesystem` | internal/firmadyne_wrapper.py:101-105 | tar2db runs once; the stage succeeds exactly when its exit code is 0 |
| `Stages.CreateQemuImage` | internal/firmadyne_wrapper.py:92-98 | makeImage.sh runs once; the stage succeeds exactly when the disk image exists, whatever the exit code |
| `Stages.InferNetworkConfiguration` | internal/firmadyne_wrapper.py:75-89 | inferNetwork.sh is spawned once; a failure reports the stage key with FAILURE followed by one message |
| `Stages.NetworkInferenceOutcome` | internal/firmadyne_wrapper.py:75-89 | inference succeeds exactly when nothing raised and piece `[1]` of the match exists and is non-empty; success records that piece under `'ip'`; an exception or a match without a quote gives the script-error message quoting `str(child)`; an empty address gives the no-address message |
| `Stages.InferredAddress` | internal/firmadyne_wrapper.py:82 | `split("'")[1]` of the matched text, or nothing where the index raises `IndexError`; stated by `AddressBetweenQuotes`, `AddressAfterOnlyQuote` and `AddressExistsIffQuoted` |
| `Stages.AddressBetweenQuotes` | internal/firmadyne_wrapper.py:81-82 | the address is the text between the first two single quotes of the match |
| `Stages.AddressAfterOnlyQuote` | internal/firmadyne_wrapper.py:82 | with a single quote, the address is everything after it |
| `Stages.AddressExistsIffQuoted` | internal/firmadyne_wrapper.py:82-85 | indexing piece `[1]` raises `IndexError` exactly when the match contains no quote |
| `Stages.MatchedTextHasAddress` | internal/firmadyne_wrapper.py:81-82 | any text holding the quote that starts the pattern's match has piece `[1]`, including the Python 3 rendering `b"..."`, where the quote is not the first character |
| `Stages.InferenceExample` | internal/firmadyne_wrapper.py:81-89 | the match `'203.0.113.5')` records the address `203.0.113.5` |
| `Stages.InferenceBytesExample` | internal/firmadyne_wrapper.py:82-89 | the same address is recorded from the Python 3 rendering `b"'203.0.113.5')"` of the matched bytes |
| `Stages.EmptyAddressExample` | internal/firmadyne_wrapper.py:87-88 | a match starting with two quotes yields the empty address and the no-address failure |
| `Stages.NegativeExitCodes` | internal/firmadyne_wrapper.py:103-112 | a negative exit code passes `store_architecture` but fails `load_filesystem` |
| `Stages.ImageIgnoresExitCode` | internal/firmadyne_wrapper.py:92-98 | the image stage's outcome depends only on whether the disk image exists |
| `Preparation.RunStages` | internal/firmadyne_wrapper.py:46-72 | runs the stage results in order, merging each literal into the dictionary and stopping after the first one that holds FAILURE; stated against independent definitions by `RunStagesShortCircuits` |
| `Preparation.PrepareEmulation` | internal/firmadyne_wrapper.py:46-72 | `prepare_emulation`: the five stages in source order through `RunStages`; stated by `PrepareStatus`, `PrepareKeys`, `PrepareValues`, `PrepareTrace` and `AllStagesPass` |
| `Preparation.FirstFailure` | internal/firmadyne_wrapper.py:46-72 | the index of the first failing stage: every earlier stage passed, and the stage at that index failed |
| `Preparation.RunStagesShortCircuits` | internal/firmadyne_wrapper.py:46-72 | the pipeline succeeds exactly when no stage fails; exactly the stages up to and including the first failure contribute their commands and their dictionary updates, in order |
| `Preparation.AllStagesPass` | internal/firmadyne_wrapper.py:46-126 | all five stages pass exactly when the input exists, the extractor exits 0 and leaves the archive, getArch.sh exits with at most 0, tar2db exits 0, the disk image exists, and inference parses a non-empty address without raising |
| `Preparation.PrepareKeys` | internal/firmadyne_wrapper.py:46-72 | from an empty dictionary, preparation succeeds exactly when no stage fails; the keys are then the executed stages' status keys in order, followed by `'error_message'` after a failure or by `'ip'` after full success, with no repeats |
| `Preparation.PrepareValues` | internal/firmadyne_wrapper.py:46-72 | every stage before the failing one reads SUCCESS and the failing one reads FAILURE; full success records the parsed address under `'ip'` and holds no FAILURE value |
| `Preparation.PreparedDict` | internal/firmadyne_wrapper.py:46-72 | from an empty dictionary, preparation leaves exactly the executed stages' literals, laid end to end |
| `Preparation.PrepareStatus` | internal/firmadyne_wrapper.py:46-72 | preparation succeeds exactly when no stage fails, whatever the starting dictionary |
| `Preparation.PreparedAddress` | internal/firmadyne_wrapper.py:29-33 | a successful preparation has recorded the address that `start_emulation` reads |
| `Preparation.PrepareMissingInput` | internal/firmadyne_wrapper.py:117-121 | with the input missing, preparation fails without running any command |
| `Preparation.RunStagesStatus` | internal/firmadyne_wrapper.py:46-72 | the generic runner succeeds exactly when no stage in the sequence fails |
| `Preparation.PrepareTrace` | internal/firmadyne_wrapper.py:46-72 | with the input present, the commands run are the first commands of the fixed pipeline, one per executed stage |
| `Preparation.PrepareRunsNothingLater` | internal/firmadyne_wrapper.py:46-72 | no stage after the first failing one runs its command |
| `Preparation.PrepareOnlyOwnCommands` | internal/firmadyne_wrapper.py:46-72 | preparation runs no command besides the five stage commands |
| `Emulation.NetworkIsAvailable` | internal/steps/emulation.py:25-31 | the network counts as available exactly when the ping exits 0 or its output contains `1 received` |
| `Emulation.ProbeExamples` | internal/steps/emulation.py:25-31 | exit code 0 always counts; a non-zero exit whose summary line reports one reply counts; a failed ping with empty output does not |
| `Emulation.StartEmulationProcessParallel` | internal/steps/emulation.py:18-22 | starts the emulator and then waits the whole warm-up time, returning the running process; its commands are stated as part of `StartEmulation`'s trace |
| `Emulation.StartEmulation` | internal/steps/emulation.py:9-22 | requires the recorded address, where the source would raise `KeyError`; the emulator is launched and the warm-up sleep ends before one ping of that address; `'emulation'` reads SUCCESS exactly when the network is available; otherwise `'error_message'` holds the unreachable-network message |
| `Emulation.StartEmulationFrame` | internal/steps/emulation.py:9-15 | no key except `'emulation'` and `'error_message'` changes, and only `'emulation'` changes when the network is up; no duplicate key appears |
| `Emulation.StartEmulationAppends` | internal/steps/emulation.py:9-15 | on a dictionary holding neither key, the literal is appended; FAILURE is present afterwards exactly when it was present before or the network stayed down |
| `Wrapper.ExecuteFirmadyne` | internal/firmadyne_wrapper.py:26-43 | preparation into an empty dictionary, then coordination; stated by `ExecuteSucceedsIff`, `AnalysisRunsIff`, `ExecuteStopsAfterPreparation` and `ExecuteTraceAfterPreparation` |
| `Wrapper.Coordinate` | internal/firmadyne_wrapper.py:29-43 | needs the recorded address after a successful preparation; an emulator is started exactly when preparation succeeded; the run can succeed only after a successful preparation; the preparation's commands stay at the front of the trace |
| `Wrapper.CoordinateAfterFailure` | internal/firmadyne_wrapper.py:29-31 | a failed preparation returns FAILURE with the dictionary and commands as they stand, with no emulator |
| `Wrapper.CoordinateStatus` | internal/firmadyne_wrapper.py:33-43 | after a successful preparation, the run succeeds exactly when the network is available and the analysis succeeds |
| `Wrapper.CoordinateTrace` | internal/firmadyne_wrapper.py:33-38 | after a successful preparation come launch, warm-up and one ping of the recorded address; the analysis follows exactly when the ping succeeded |
| `Wrapper.CoordinateAnalysis` | internal/firmadyne_wrapper.py:34-38 | the analysis runs exactly when emulation left no FAILURE value, that is, when the network came up |
| `Wrapper.CoordinateDict` | internal/firmadyne_wrapper.py:33-36 | after a successful preparation, emulation appends its literal to the prepared dictionary |
| `Wrapper.CoordinateKeys` | internal/firmadyne_wrapper.py:33-36 | the keys after emulation are the preparation's keys, then `'emulation'`, then `'error_message'` after an unreachable network |
| `Wrapper.PreparedForEmulation` | internal/firmadyne_wrapper.py:29-33 | a full preparation succeeds with no FAILURE value and no repeated key; it has recorded `'ip'` but none of `'emulation'`, `'error_message'` or `'result'`; its keys are the five status keys followed by `'ip'` |
| `Wrapper.ExecuteStopsAfterPreparation` | internal/firmadyne_wrapper.py:26-31 | when a stage fails, the run returns FAILURE with the preparation's dictionary and commands, launches no emulator and runs no analysis |
| `Wrapper.ExecuteDictAfterPreparation` | internal/firmadyne_wrapper.py:29-36 | after a full preparation, the emulation literal is appended to the prepared dictionary |
| `Wrapper.ExecuteTraceAfterPreparation` | internal/firmadyne_wrapper.py:29-38 | after a full preparation, the commands are the five stage commands, launch, warm-up of 40 seconds, one ping of the recorded address, and the analysis exactly when the ping succeeded |
| `Wrapper.ExecuteSucceedsIff` | internal/firmadyne_wrapper.py:26-43 | the run succeeds exactly when all five stages pass, the network is available and the analysis succeeds |
| `Wrapper.AnalysisAfterPreparation` | internal/firmadyne_wrapper.py:33-38 | after a full preparation, the analysis runs exactly when the network is available |
| `Wrapper.AnalysisRunsIff` | internal/firmadyne_wrapper.py:26-38 | the analysis runs exactly when all five stages pass and the network is available |
| `Wrapper.ExecuteKeysAfterFailure` | internal/firmadyne_wrapper.py:29-31 | after a failed stage, the keys are the executed status keys followed by `'error_message'` |
| `Wrapper.ExecuteKeysAfterPreparation` | internal/firmadyne_wrapper.py:29-36 | after a full preparation, the keys are the five status keys, `'ip'`, `'emulation'`, and `'error_message'` when the network stayed down |
| `Wrapper.ExecuteLeavesResultFree` | internal/firmadyne_wrapper.py:17-21 | the run never writes `'result'` itself |
| `Wrapper.Firmadyne` | internal/firmadyne_wrapper.py:16-23 | `'result'` holds the summary for the run's status, and the report write is the last command |
| `Wrapper.FirmadyneSummary` | internal/firmadyne_wrapper.py:16-21 | `'result'` reads the success sentence exactly when preparation, network and analysis all succeeded, and is appended after the run's own entries |
| `Wrapper.CleanFirmadyne` | internal/firmadyne_wrapper.py:129-137 | delete.sh runs first and exactly once; the result is 0 exactly when its exit code is strictly positive, and then nothing else runs; otherwise exactly additional_delete.sh follows and the result is 1; only cleanup commands run |
| `Wrapper.ExecuteCommands` | internal/firmadyne_wrapper.py:26-43 | the run itself neither cleans up nor writes the report |
| `Wrapper.Main` | internal/firmadyne_wrapper.py:147-151 | `main`: cleanup, `firmadyne`, cleanup again, with the cleanup results ignored; stated by `MainCleansTwice` and `MainMissingInput` |
| `Wrapper.CleanupAroundRun` | internal/firmadyne_wrapper.py:147-151 | a run's commands placed between two cleanups and followed by the report write keep their position right after the first cleanup, delete.sh runs twice, once before the write and once right after it, the write occurs once, and the two cleanups stay at the two ends |
| `Wrapper.MainCleansTwice` | internal/firmadyne_wrapper.py:147-151 | delete.sh is the first command and runs exactly twice; the invocation starts with the cleanup for the first delete.sh exit code and ends with the cleanup for the second; only cleanup commands come before the run's own commands, which appear unchanged and in order; the report write follows them directly and is the only one; exactly one delete.sh comes before the write, another comes right after it, and only cleanup commands follow it |
| `Wrapper.MissingInputExecution` | internal/firmadyne_wrapper.py:26-31 | with the input missing, the run fails, runs no command, and reports only the extraction failure and the invalid-path message |
| `Wrapper.MainMissingInput` | internal/firmadyne_wrapper.py:147-151 | with the input missing, the invocation runs only the two cleanups around the report write; the report holds the extraction failure, the invalid-path message and `Firmadyne failed!` |

## Left out

- Process execution: subprocess, pexpect sessions, password prompts and
  `multiprocessing`. They are replaced by the oracle and the command trace.
- Command strings, `FIRMADYNE_PATH` and `change_dir_to_firmadyne_dir`. Only the
  fact that a command ran is recorded.
- pexpect's regular-expression matching and its timeouts. The oracle supplies the
  matched text, and an `inferRaised` flag stands for any exception in spawn, expect
  or wait.
- The abort when `pexpect.spawn` itself raises. In that case `child` is unbound,
  so building the message from `str(child)` in the `except` handler raises
  `UnboundLocalError`. Nothing catches it: `firmadyne` and `main` stop,
  results.json is not written, and the second `clean_firmadyne` does not run. The
  model treats that path like any other exception, as a FAILURE with a message
  taken from the oracle.
- Wrapper.MainCleansTwice: holds only because the spawn-failure abort above is not
  modelled. On that path the source runs delete.sh once and writes no report.
- The clock: `time.sleep` is a `Sleep(40)` event; the ping timeout is not modelled.
- JSON serialisation and the file write. The write is the `WriteResults` event
  carrying the final dictionary.
- The analysis step (`start_analysis`) is not part of this model. Its verdict
  comes from the oracle, and any keys it may add to the result dictionary are not
  modelled.
- `emulate_firmware` and the output of run.sh. Only the launch is recorded, and the
  process is never stopped, as in the source.
- Logging and argument parsing.
- Wrapper.Coordinate: requires the `'ip'` key after a successful preparation,
  because the source raises `KeyError` without it.
  `Preparation.PreparedAddress` proves that every preparation meets this.

=== FILE: emulation.dfy ===
/** The emulation step: launch the emulator in the background, wait the fixed
    warm-up time, probe the recorded address once, and record whether the network
    came up. The emulator process is handed back on both paths and never stopped. */
module Emulation {
  import opened Values
  import opened OrderedDict
  import opened Text
  import opened Externals
  import opened Stages

  const EmulationKey := "emulation"
  const UnreachableMessage := "Firmadyne wasn't able to start the network while emulating"

  /** The text of a successful single-echo ping summary. */
  const ReachabilityMarker := "1 received"

  /** The background emulator process. The source keeps no handle that could stop
      it, so a started process is always running. */
  datatype Process = Running

  /** `network_is_available`: the probe counts as a success when it exits with code
      zero or when its output reports one received reply. */
  function NetworkIsAvailable(rc: int, output: string): (available: bool)
    ensures available <==> rc == 0 || IsSubstring(ReachabilityMarker, output)
  {
    ContainsIsSubstring(output, ReachabilityMarker);
    rc == 0 || Contains(output, ReachabilityMarker)
  }

  /** The started process and the commands that started it. */
  datatype Launch = Launch(trace: seq<Command>, process: Process)

  /** `start_emulation_process_parallel`: start the process, then block for the
      whole warm-up time. */
  function StartEmulationProcessParallel(initTime: nat): Launch
  {
    Launch([LaunchEmulation, Sleep(initTime)], Running)
  }

  /** The outcome of the emulation step. */
  datatype EmulationRun = EmulationRun(trace: seq<Command>, dict: Dict, process: Process)

  /** The literal `start_emulation` writes into the result dictionary. */
  function EmulationEntries(available: bool): Dict
  {
    if available then [(EmulationKey, Status(Success))]
    else [(EmulationKey, Status(Failure)), (ErrorKey, Text(UnreachableMessage))]
  }

  lemma EmulationEntriesKeys(available: bool)
    ensures Keys(EmulationEntries(available)) == if available then [EmulationKey] else [EmulationKey, ErrorKey]
  {
  }

  /** `start_emulation`: the source raises `KeyError` unless network inference
      recorded an address. The process is launched and the warm-up completes before
      one single probe of that address. */
  function StartEmulation(d: Dict, initTime: nat, o: Oracle): (r: EmulationRun)
    requires HasKey(d, IpKey)
    ensures r.trace == [LaunchEmulation, Sleep(initTime), Ping(Get(d, IpKey).value)]
    ensures Get(r.dict, EmulationKey) ==
      Some(Status(if NetworkIsAvailable(o.pingRc, o.pingOutput) then Success else Failure))
    ensures !NetworkIsAvailable(o.pingRc, o.pingOutput) ==> Get(r.dict, ErrorKey) == Some(Text(UnreachableMessage))
  {
    var launch := StartEmulationProcessParallel(initTime);
    var available := NetworkIsAvailable(o.pingRc, o.pingOutput);
    var entries := EmulationEntries(available);
    UpdateAllGetAll(d, entries);
    assert !available ==> Get(entries, ErrorKey) == Some(Text(UnreachableMessage)) by {
      if !available {
        GetAt(entries, ErrorKey, 1);
      }
    }
    EmulationRun(launch.trace + [Ping(Get(d, IpKey).value)], UpdateAll(d, entries), launch.process)
  }

  /** Nothing but `'emulation'` and, on failure, `'error_message'` changes; a
      well-formed dictionary stays well-formed, so `'emulation'` occurs exactly once. */
  lemma StartEmulationFrame(d: Dict, initTime: nat, o: Oracle)
    requires HasKey(d, IpKey)
    ensures forall k :: k != EmulationKey && k != ErrorKey ==>
      Get(StartEmulation(d, initTime, o).dict, k) == Get(d, k)
    ensures NetworkIsAvailable(o.pingRc, o.pingOutput) ==>
      forall k :: k != EmulationKey ==> Get(StartEmulation(d, initTime, o).dict, k) == Get(d, k)
    ensures Wf(d) ==> Wf(StartEmulation(d, initTime, o).dict)
  {
    var entries := EmulationEntries(NetworkIsAvailable(o.pingRc, o.pingOutput));
    UpdateAllGetAll(d, entries);
    if Wf(d) {
      UpdateAllWf(d, entries);
    }
  }

  /** When neither key is present yet, the step appends its literal at the end, so
      the dictionary holds a FAILURE value afterwards iff it held one before or the
      network stayed unreachable. */
  lemma StartEmulationAppends(d: Dict, initTime: nat, o: Oracle)
    requires HasKey(d, IpKey) && Wf(d)
    requires !HasKey(d, EmulationKey) && !HasKey(d, ErrorKey)
    ensures StartEmulation(d, initTime, o).dict == d + EmulationEntries(NetworkIsAvailable(o.pingRc, o.pingOutput))
    ensures HasFailure(StartEmulation(d, initTime, o).dict) <==>
      HasFailure(d) || !NetworkIsAvailable(o.pingRc, o.pingOutput)
  {
    var available := NetworkIsAvailable(o.pingRc, o.pingOutput);
    var entries := EmulationEntries(available);
    var e := d + entries;
    assert Wf(e) by {
      WfKeys(d);
      KeysAppend(d, entries);
      assert forall i :: 0 <= i < |d| ==> Keys(d)[i] != EmulationKey && Keys(d)[i] != ErrorKey;
      WfKeys(e);
    }
    UpdateAllFresh(d, entries);
    HasFailureAppend(d, entries);
    if !available {
      assert entries[0].1 == Status(Failure);
    }
  }

  /** A successful exit code suffices, and so does the marker in the output
      whatever the exit code; a failing probe with no output is unreachable. */
  lemma ProbeExamples(output: string)
    ensures NetworkIsAvailable(0, output)
    ensures NetworkIsAvailable(1, "1 packets transmitted, 1 received, 0% packet loss")
    ensures !NetworkIsAvailable(1, "")
  {
    SummaryLineReportsReply();
  }

  /** The summary line of a ping that got its reply contains the marker. */
  lemma SummaryLineReportsReply()
    ensures IsSubstring(ReachabilityMarker, "1 packets transmitted, 1 received, 0% packet loss")
  {
    assert "1 packets transmitted, 1 received, 0% packet loss" ==
      "1 packets transmitted, " + ReachabilityMarker + ", 0% packet loss";
    OccursInMiddle("1 packets transmitted, ", ReachabilityMarker, ", 0% packet loss");
  }
}

=== FILE: externals.dfy ===
/** The orchestrator's view of the outside world. Every external command becomes an
    event of the trace, and every observable outcome of the outside world becomes a
    field of the `Oracle` record, fixed before the run starts. */
module Externals {
  import opened Values
  import opened OrderedDict

  /** One external action, in the order the orchestrator performs it. All commands
      work on image slot 1 under the Firmadyne installation directory. */
  datatype Command =
    | RunExtractor(inputFile: string)  // extractor.py on the firmware image, into images/
    | RunGetArch                       // getArch.sh on images/1.tar.gz (password prompt answered)
    | RunTar2Db                        // tar2db.py -i 1 on images/1.tar.gz
    | RunMakeImage                     // makeImage.sh 1 (password prompt answered)
    | SpawnInferNetwork                // inferNetwork.sh 1 under pexpect (password prompt answered)
    | LaunchEmulation                  // background process running scratch/1/run.sh
    | Sleep(seconds: nat)              // the fixed warm-up wait after the launch
    | Ping(target: Value)              // `ping -c 1` on the recorded address
    | RunAnalysis(report: Dict)        // the analysis step, handed the result dictionary
    | WriteResults(report: Dict)       // results.json written with the final dictionary
    | RunDelete                        // delete.sh 1 (password prompt answered)
    | RunAdditionalDelete              // additional_delete.sh

  /** The two cleanup scripts, as opposed to the commands of an emulation run. */
  predicate IsCleanup(c: Command)
  {
    c.RunDelete? || c.RunAdditionalDelete?
  }

  /** Everything the outside world answers during one invocation of the orchestrator. */
  datatype Oracle = Oracle(
    inputExists: bool,     // os.path.exists(input_file)
    extractorRc: int,      // exit code of the extractor
    archiveExists: bool,   // images/1.tar.gz exists after extraction
    getArchRc: int,        // exit code of getArch.sh
    tar2DbRc: int,         // exit code of tar2db.py
    makeImageRc: int,      // exit code of makeImage.sh (the source never reads it)
    imageExists: bool,     // scratch/1/image.raw exists after makeImage.sh
    inferRaised: bool,     // spawning, expecting on or waiting for inferNetwork.sh raised
    inferMatch: string,    // str() of the text pexpect matched as the address
    inferChild: string,    // str(child), quoted in the error message
    pingRc: int,           // exit code of the ping probe
    pingOutput: string,    // output of the ping probe
    analysis: ResultType,  // verdict of the analysis step
    firstDeleteRc: int,    // exit code of delete.sh before the run
    secondDeleteRc: int    // exit code of delete.sh after the run
  )
}

=== FILE: ordered_dict.dfy ===
/** The ordered result dictionary: a sequence of key/value pairs with the update
    semantics of Python's `OrderedDict` (an existing key keeps its position and
    takes the new value; a new key is appended at the end). */
module OrderedDict {
  import opened Values

  type Dict = seq<(string, Value)>

  /** The keys of `d`, in insertion order. */
  function Keys(d: Dict): seq<string>
  {
    seq(|d|, i requires 0 <= i < |d| => d[i].0)
  }

  predicate HasKey(d: Dict, k: string)
  {
    exists i :: 0 <= i < |d| && d[i].0 == k
  }

  /** No key occurs twice: every dictionary the source builds has this shape. */
  predicate Wf(d: Dict)
  {
    forall i, j :: 0 <= i < j < |d| ==> d[i].0 != d[j].0
  }

  /** `ResultType.FAILURE in d.values()` */
  predicate HasFailure(d: Dict)
  {
    exists i :: 0 <= i < |d| && d[i].1 == Status(Failure)
  }

  /** `d[k]`, or `None` when `k` is missing (where Python raises `KeyError`). */
  function Get(d: Dict, k: string): (r: Option<Value>)
    ensures r.Some? <==> HasKey(d, k)
  {
    if d == [] then None
    else if d[0].0 == k then Some(d[0].1)
    else
      assert forall i :: 0 < i < |d| ==> d[i] == d[1..][i - 1];
      Get(d[1..], k)
  }

  /** In a well-formed dictionary, `d[k]` is the value stored next to `k`. */
  lemma {:induction false} GetAt(d: Dict, k: string, i: nat)
    requires Wf(d) && i < |d| && d[i].0 == k
    ensures Get(d, k) == Some(d[i].1)
  {
    if i > 0 {
      assert d[1..][i - 1] == d[i];
      GetAt(d[1..], k, i - 1);
    }
  }

  /** `d[k] = v`: replaces the value in place when `k` is present, appends otherwise. */
  function Update(d: Dict, k: string, v: Value): (r: Dict)
    ensures Get(r, k) == Some(v)
    ensures forall k' :: k' != k ==> Get(r, k') == Get(d, k')
    ensures HasKey(d, k) ==> |r| == |d| && forall i :: 0 <= i < |d| ==> r[i].0 == d[i].0
    ensures !HasKey(d, k) ==> r == d + [(k, v)]
  {
    if d == [] then [(k, v)]
    else if d[0].0 == k then [(k, v)] + d[1..]
    else
      assert HasKey(d, k) <==> HasKey(d[1..], k) by {
        assert forall i :: 0 < i < |d| ==> d[i] == d[1..][i - 1];
      }
      var tail := Update(d[1..], k, v);
      assert forall k' :: Get([d[0]] + tail, k') == if d[0].0 == k' then Some(d[0].1) else Get(tail, k') by {
        assert ([d[0]] + tail)[1..] == tail;
      }
      [d[0]] + tail
  }

  /** Writing one pair keeps a well-formed dictionary well-formed. */
  lemma UpdateWf(d: Dict, k: string, v: Value)
    requires Wf(d)
    ensures Wf(Update(d, k, v))
  {
    var r := Update(d, k, v);
    if !HasKey(d, k) {
      assert forall i :: 0 <= i < |d| ==> r[i] == d[i];
    }
  }

  /** `d.update(e)` for a dictionary literal `e`: the pairs of `e` are written in order. */
  function UpdateAll(d: Dict, e: Dict): (r: Dict)
    decreases |e|
  {
    if e == [] then d else UpdateAll(Update(d, e[0].0, e[0].1), e[1..])
  }

  /** Writing a well-formed literal whose keys are all new appends it unchanged,
      so the result keeps both the old order and the literal's order. */
  lemma {:induction false} UpdateAllFresh(d: Dict, e: Dict)
    requires Wf(d + e)
    ensures UpdateAll(d, e) == d + e
    decreases |e|
  {
    if e != [] {
      assert (d + e)[|d|] == e[0];
      assert forall i :: 0 <= i < |d| ==> d[i] == (d + e)[i];
      var d' := Update(d, e[0].0, e[0].1);
      assert d' == d + [e[0]];
      assert d' + e[1..] == d + e;
      UpdateAllFresh(d', e[1..]);
    }
  }

  /** Updating with two literals one after the other is updating with their concatenation. */
  lemma {:induction false} UpdateAllAppend(d: Dict, e1: Dict, e2: Dict)
    ensures UpdateAll(d, e1 + e2) == UpdateAll(UpdateAll(d, e1), e2)
    decreases |e1|
  {
    if e1 != [] {
      assert (e1 + e2)[0] == e1[0];
      assert (e1 + e2)[1..] == e1[1..] + e2;
      UpdateAllAppend(Update(d, e1[0].0, e1[0].1), e1[1..], e2);
    } else {
      assert e1 + e2 == e2;
    }
  }

  /** After `d.update(e)`, a key written by `e` holds the last value `e` gave it and
      every other key keeps its value from `d`. */
  lemma {:induction false} UpdateAllGet(d: Dict, e: Dict, k: string)
    requires Wf(e)
    ensures Get(UpdateAll(d, e), k) == (if HasKey(e, k) then Get(e, k) else Get(d, k))
    decreases |e|
  {
    if e != [] {
      assert Wf(e[1..]);
      UpdateAllGet(Update(d, e[0].0, e[0].1), e[1..], k);
      assert forall i :: 0 <= i < |e[1..]| ==> e[1..][i] == e[i + 1];
    }
  }

  /** `UpdateAllGet` for every key at once. */
  lemma UpdateAllGetAll(d: Dict, e: Dict)
    requires Wf(e)
    ensures forall k :: Get(UpdateAll(d, e), k) == (if HasKey(e, k) then Get(e, k) else Get(d, k))
  {
    forall k {
      UpdateAllGet(d, e, k);
    }
  }

  /** Writing pairs keeps a well-formed dictionary well-formed. */
  lemma {:induction false} UpdateAllWf(d: Dict, e: Dict)
    requires Wf(d)
    ensures Wf(UpdateAll(d, e))
    decreases |e|
  {
    if e != [] {
      UpdateWf(d, e[0].0, e[0].1);
      UpdateAllWf(Update(d, e[0].0, e[0].1), e[1..]);
    }
  }

  /** No key repeats in a sequence of keys. */
  predicate Distinct(ks: seq<string>)
  {
    forall i, j :: 0 <= i < j < |ks| ==> ks[i] != ks[j]
  }

  /** A dictionary is well-formed exactly when its key sequence is repetition-free. */
  lemma WfKeys(d: Dict)
    ensures Wf(d) <==> Distinct(Keys(d))
  {
    assert forall i :: 0 <= i < |d| ==> Keys(d)[i] == d[i].0;
  }

  /** A dictionary whose keys are a repetition-free sequence is well-formed. */
  lemma WfFromKeys(d: Dict, ks: seq<string>)
    requires Keys(d) == ks && Distinct(ks)
    ensures Wf(d)
  {
    WfKeys(d);
  }

  lemma HasKeyKeys(d: Dict, k: string)
    ensures HasKey(d, k) <==> k in Keys(d)
  {
    if k in Keys(d) {
      var i :| 0 <= i < |d| && Keys(d)[i] == k;
      assert d[i].0 == k;
    }
    if HasKey(d, k) {
      var i :| 0 <= i < |d| && d[i].0 == k;
      assert Keys(d)[i] == k;
    }
  }

  lemma KeysAppend(a: Dict, b: Dict)
    ensures Keys(a + b) == Keys(a) + Keys(b)
  {
  }

  /** A failure value is present after appending fresh pairs iff it was present in
      one of the two parts. */
  lemma HasFailureAppend(d: Dict, e: Dict)
    ensures HasFailure(d + e) <==> HasFailure(d) || HasFailure(e)
  {
    if HasFailure(d) {
      var i :| 0 <= i < |d| && d[i].1 == Status(Failure);
      assert (d + e)[i] == d[i];
    }
    if HasFailure(e) {
      var i :| 0 <= i < |e| && e[i].1 == Status(Failure);
      assert (d + e)[|d| + i] == e[i];
    }
    if HasFailure(d + e) {
      var i :| 0 <= i < |d + e| && (d + e)[i].1 == Status(Failure);
      if i >= |d| {
        assert e[i - |d|] == (d + e)[i];
      } else {
        assert d[i] == (d + e)[i];
      }
    }
  }
}

=== FILE: preparation.dfy ===
/** `prepare_emulation`: the five stages run in a fixed order into the result
    dictionary, and the run stops right after the first stage that fails. */
module Preparation {
  import opened Values
  import opened OrderedDict
  import opened Externals
  import opened Stages

  /** The state of the pipeline after it stops: the status `prepare_emulation`
      returns, the commands run so far and the result dictionary. */
  datatype Progress = Progress(status: ResultType, trace: seq<Command>, dict: Dict)

  /** Runs the stages in order into `d`, stopping right after the first stage whose
      own literal holds FAILURE. */
  function RunStages(stages: seq<StageRun>, d: Dict): Progress
  {
    if stages == [] then Progress(Success, [], d)
    else
      var d' := UpdateAll(d, stages[0].entries);
      if Failed(stages[0]) then Progress(Failure, stages[0].trace, d')
      else
        var rest := RunStages(stages[1..], d');
        Progress(rest.status, stages[0].trace + rest.trace, rest.dict)
  }

  /** Index of the first failing stage, or the number of stages when none fails. */
  function FirstFailure(stages: seq<StageRun>): (n: nat)
    ensures n <= |stages|
    ensures forall i :: 0 <= i < n ==> !Failed(stages[i])
    ensures n < |stages| ==> Failed(stages[n])
  {
    if stages == [] then 0
    else if Failed(stages[0]) then 0
    else 1 + FirstFailure(stages[1..])
  }

  /** How many stages run: up to and including the first failing one. */
  function ExecutedCount(stages: seq<StageRun>): nat
  {
    var n := FirstFailure(stages);
    if n < |stages| then n + 1 else n
  }

  /** The commands of a sequence of stages, one stage after the other. */
  function Traces(stages: seq<StageRun>): seq<Command>
  {
    if stages == [] then [] else stages[0].trace + Traces(stages[1..])
  }

  /** The dictionary literals of a sequence of stages, one after the other. */
  function Entries(stages: seq<StageRun>): Dict
  {
    if stages == [] then [] else stages[0].entries + Entries(stages[1..])
  }

  /** The pipeline short-circuits: it succeeds iff no stage fails, and exactly the
      stages up to the first failure contribute commands and dictionary updates. */
  lemma RunStagesShortCircuits(stages: seq<StageRun>, d: Dict)
    ensures RunStages(stages, d).status == Success <==> FirstFailure(stages) == |stages|
    ensures RunStages(stages, d).trace == Traces(stages[..ExecutedCount(stages)])
    ensures RunStages(stages, d).dict == UpdateAll(d, Entries(stages[..ExecutedCount(stages)]))
  {
    RunStagesStatus(stages, d);
    RunStagesTrace(stages, d);
    RunStagesDict(stages, d);
  }

  lemma {:induction false} RunStagesStatus(stages: seq<StageRun>, d: Dict)
    ensures RunStages(stages, d).status == Success <==> FirstFailure(stages) == |stages|
    decreases |stages|
  {
    if stages != [] && !Failed(stages[0]) {
      RunStagesStatus(stages[1..], UpdateAll(d, stages[0].entries));
    }
  }

  /** Running the stages after a passing first stage: its prefix of executed stages
      is that stage followed by the executed prefix of the rest. */
  lemma ExecutedAfterPass(stages: seq<StageRun>)
    requires stages != [] && !Failed(stages[0])
    ensures ExecutedCount(stages) == ExecutedCount(stages[1..]) + 1
    ensures stages[..ExecutedCount(stages)] == [stages[0]] + stages[1..][..ExecutedCount(stages[1..])]
  {
  }

  lemma {:induction false} RunStagesTrace(stages: seq<StageRun>, d: Dict)
    ensures RunStages(stages, d).trace == Traces(stages[..ExecutedCount(stages)])
    decreases |stages|
  {
    if stages != [] {
      if Failed(stages[0]) {
        assert Traces(stages[..1]) == stages[0].trace;
      } else {
        var tail := stages[1..];
        RunStagesTrace(tail, UpdateAll(d, stages[0].entries));
        ExecutedAfterPass(stages);
        var prefix := stages[..ExecutedCount(stages)];
        assert prefix[1..] == tail[..ExecutedCount(tail)];
      }
    }
  }

  lemma {:induction false} RunStagesDict(stages: seq<StageRun>, d: Dict)
    ensures RunStages(stages, d).dict == UpdateAll(d, Entries(stages[..ExecutedCount(stages)]))
    decreases |stages|
  {
    if stages != [] {
      if Failed(stages[0]) {
        assert Entries(stages[..1]) == stages[0].entries;
      } else {
        var tail := stages[1..];
        RunStagesDict(tail, UpdateAll(d, stages[0].entries));
        ExecutedAfterPass(stages);
        var prefix := stages[..ExecutedCount(stages)];
        assert prefix[1..] == tail[..ExecutedCount(tail)];
        UpdateAllAppend(d, stages[0].entries, Entries(tail[..ExecutedCount(tail)]));
      }
    }
  }

  /** The stage literals in pipeline order, as the outside world answers them. */
  function PreparationStages(inputFile: string, o: Oracle): seq<StageRun>
  {
    [ExtractImage(inputFile, o), StoreArchitecture(o), LoadFilesystem(o), CreateQemuImage(o), InferNetworkConfiguration(o)]
  }

  /** `prepare_emulation`: extraction, architecture, filesystem load, QEMU image and
      network inference, in that order, into the dictionary `d`. */
  function PrepareEmulation(inputFile: string, o: Oracle, d: Dict): Progress
  {
    RunStages(PreparationStages(inputFile, o), d)
  }

  /** The five preparation commands in pipeline order. */
  function PreparationCommands(inputFile: string): seq<Command>
  {
    [RunExtractor(inputFile), RunGetArch, RunTar2Db, RunMakeImage, SpawnInferNetwork]
  }

  /** `{key: SUCCESS}` for each key of `ks`, in order. */
  function AllPassed(ks: seq<string>): (d: Dict)
    ensures |d| == |ks|
    ensures forall i :: 0 <= i < |ks| ==> d[i] == (ks[i], Status(Success))
  {
    if ks == [] then [] else Passed(ks[0]) + AllPassed(ks[1..])
  }

  lemma {:induction false} EntriesAppend(a: seq<StageRun>, b: seq<StageRun>)
    ensures Entries(a + b) == Entries(a) + Entries(b)
    decreases |a|
  {
    if a == [] {
      assert a + b == b;
    } else {
      assert (a + b)[1..] == a[1..] + b;
      EntriesAppend(a[1..], b);
    }
  }

  lemma {:induction false} TracesAppend(a: seq<StageRun>, b: seq<StageRun>)
    ensures Traces(a + b) == Traces(a) + Traces(b)
    decreases |a|
  {
    if a == [] {
      assert a + b == b;
    } else {
      assert (a + b)[1..] == a[1..] + b;
      TracesAppend(a[1..], b);
    }
  }

  /** Stages that all passed with their own key contribute one SUCCESS pair each. */
  lemma {:induction false} EntriesAllPassed(stages: seq<StageRun>, ks: seq<string>, m: nat)
    requires m <= |stages| && m <= |ks|
    requires forall i :: 0 <= i < m ==> stages[i].entries == Passed(ks[i])
    ensures Entries(stages[..m]) == AllPassed(ks[..m])
    decreases m
  {
    if m > 0 {
      EntriesAllPassed(stages[1..], ks[1..], m - 1);
      assert stages[..m][1..] == stages[1..][..m - 1];
      assert ks[..m][1..] == ks[1..][..m - 1];
    }
  }

  /** Stages that each ran one command contribute those commands in order. */
  lemma {:induction false} TracesOneEach(stages: seq<StageRun>, cmds: seq<Command>, m: nat)
    requires m <= |stages| && m <= |cmds|
    requires forall i :: 0 <= i < m ==> stages[i].trace == [cmds[i]]
    ensures Traces(stages[..m]) == cmds[..m]
    decreases m
  {
    if m > 0 {
      TracesOneEach(stages[1..], cmds[1..], m - 1);
      assert stages[..m][1..] == stages[1..][..m - 1];
      assert cmds[..m] == [cmds[0]] + cmds[1..][..m - 1];
    }
  }

  /** What each of the five stages reports, read off its classifier. */
  lemma StageFacts(inputFile: string, o: Oracle, i: nat)
    requires i < 5
    ensures Failed(PreparationStages(inputFile, o)[i]) ==>
      FailureReport(PreparationStages(inputFile, o)[i].entries, StageKeys[i])
    ensures i < 4 && !Failed(PreparationStages(inputFile, o)[i]) ==>
      PreparationStages(inputFile, o)[i].entries == Passed(StageKeys[i])
    ensures o.inputExists ==> PreparationStages(inputFile, o)[i].trace == [PreparationCommands(inputFile)[i]]
  {
    var stages := PreparationStages(inputFile, o);
    if i == 0 {
      assert stages[i] == ExtractImage(inputFile, o);
    } else if i == 1 {
      assert stages[i] == StoreArchitecture(o);
    } else if i == 2 {
      assert stages[i] == LoadFilesystem(o);
    } else if i == 3 {
      assert stages[i] == CreateQemuImage(o);
    } else {
      assert stages[i] == InferNetworkConfiguration(o);
    }
  }

  /** The status keys and the error key never clash. */
  lemma PreparedKeysDistinct(n: nat)
    requires n < 5
    ensures Distinct(StageKeys[..n + 1] + [ErrorKey])
    ensures Distinct(StageKeys + [IpKey])
  {
    if n == 0 {
      assert StageKeys[..1] + [ErrorKey] == [ExtractionKey, ErrorKey];
    } else if n == 1 {
      assert StageKeys[..2] + [ErrorKey] == [ExtractionKey, ArchitectureKey, ErrorKey];
    } else if n == 2 {
      assert StageKeys[..3] + [ErrorKey] == [ExtractionKey, ArchitectureKey, LoadKey, ErrorKey];
    } else if n == 3 {
      assert StageKeys[..4] + [ErrorKey] == [ExtractionKey, ArchitectureKey, LoadKey, ImageKey, ErrorKey];
    } else {
      assert StageKeys[..5] + [ErrorKey] == [ExtractionKey, ArchitectureKey, LoadKey, ImageKey, NetworkKey, ErrorKey];
    }
  }

  /** The index of the stage that stops the preparation (5 when none does). */
  function FailingStage(inputFile: string, o: Oracle): nat
  {
    FirstFailure(PreparationStages(inputFile, o))
  }

  /** The index of the last stage that runs. */
  function LastExecuted(inputFile: string, o: Oracle): nat
  {
    var n := FailingStage(inputFile, o);
    if n < 5 then n else 4
  }

  /** The stage literals of the executed stages, laid end to end. */
  function PreparedLiteral(inputFile: string, o: Oracle): Dict
  {
    var m := LastExecuted(inputFile, o);
    AllPassed(StageKeys[..m]) + PreparationStages(inputFile, o)[m].entries
  }

  lemma ExecutedEntries(inputFile: string, o: Oracle)
    ensures ExecutedCount(PreparationStages(inputFile, o)) == LastExecuted(inputFile, o) + 1
    ensures Entries(PreparationStages(inputFile, o)[..LastExecuted(inputFile, o) + 1]) == PreparedLiteral(inputFile, o)
  {
    var stages := PreparationStages(inputFile, o);
    var m := LastExecuted(inputFile, o);
    forall i | 0 <= i < m
      ensures stages[i].entries == Passed(StageKeys[i])
    {
      StageFacts(inputFile, o, i);
    }
    EntriesPassedPrefix(stages, StageKeys, m);
  }

  /** Passing stages followed by one more stage contribute their SUCCESS pairs and
      then that stage's literal. */
  lemma EntriesPassedPrefix(stages: seq<StageRun>, ks: seq<string>, m: nat)
    requires m < |stages| && m <= |ks|
    requires forall i :: 0 <= i < m ==> stages[i].entries == Passed(ks[i])
    ensures Entries(stages[..m + 1]) == AllPassed(ks[..m]) + stages[m].entries
  {
    EntriesAllPassed(stages, ks, m);
    assert stages[..m + 1] == stages[..m] + [stages[m]];
    EntriesAppend(stages[..m], [stages[m]]);
    assert Entries([stages[m]]) == stages[m].entries;
  }

  /** The keys of the last executed stage's literal: its own status key, then
      `'error_message'` after a failure or `'ip'` after full success. */
  lemma LastStageKeys(inputFile: string, o: Oracle)
    ensures var m := LastExecuted(inputFile, o);
      Keys(PreparationStages(inputFile, o)[m].entries) ==
        if FailingStage(inputFile, o) < 5 then [StageKeys[m], ErrorKey] else [NetworkKey, IpKey]
  {
    var m := LastExecuted(inputFile, o);
    StageFacts(inputFile, o, m);
    if FailingStage(inputFile, o) == 5 {
      NetworkInferenceOutcome(o);
    }
  }

  lemma AllPassedKeys(ks: seq<string>)
    ensures Keys(AllPassed(ks)) == ks
  {
  }

  /** The keys of the executed literals: the status keys of the executed stages,
      then `'error_message'` after a failure or `'ip'` after full success. */
  lemma PreparedLiteralKeys(inputFile: string, o: Oracle)
    ensures FailingStage(inputFile, o) < 5 ==>
      Keys(PreparedLiteral(inputFile, o)) == StageKeys[..FailingStage(inputFile, o) + 1] + [ErrorKey]
    ensures FailingStage(inputFile, o) == 5 ==>
      Keys(PreparedLiteral(inputFile, o)) == StageKeys + [IpKey]
  {
    if FailingStage(inputFile, o) < 5 {
      FailedLiteralKeys(inputFile, o);
    } else {
      PassedLiteralKeys(inputFile, o);
    }
  }

  /** The keys left behind when stage `n` fails: those of the stages up to `n`, then the error. */
  lemma FailedLiteralKeys(inputFile: string, o: Oracle)
    requires FailingStage(inputFile, o) < 5
    ensures Keys(PreparedLiteral(inputFile, o)) == StageKeys[..FailingStage(inputFile, o) + 1] + [ErrorKey]
  {
    LastStageKeys(inputFile, o);
    FailedThenKeys(StageKeys, FailingStage(inputFile, o), PreparationStages(inputFile, o)[FailingStage(inputFile, o)].entries);
  }

  /** The keys left behind when every stage passes: all stage keys, then the address. */
  lemma PassedLiteralKeys(inputFile: string, o: Oracle)
    requires FailingStage(inputFile, o) == 5
    ensures Keys(PreparedLiteral(inputFile, o)) == StageKeys + [IpKey]
  {
    LastStageKeys(inputFile, o);
    PassedThenKeys(StageKeys[..4], PreparationStages(inputFile, o)[4].entries, [NetworkKey, IpKey]);
    assert StageKeys[..4] + [NetworkKey, IpKey] == StageKeys + [IpKey];
  }

  /** Passed literals for the first `n` keys of `ks` followed by the failure entries of
      stage `n` carry the keys up to `n`, then the error key. */
  lemma FailedThenKeys(ks: seq<string>, n: nat, e: Dict)
    requires n < |ks| && Keys(e) == [ks[n], ErrorKey]
    ensures Keys(AllPassed(ks[..n]) + e) == ks[..n + 1] + [ErrorKey]
  {
    PassedThenKeys(ks[..n], e, [ks[n], ErrorKey]);
    assert ks[..n] + [ks[n], ErrorKey] == ks[..n + 1] + [ErrorKey];
  }

  /** Passed literals for `ks` followed by entries `e` carry the keys `ks`, then those of `e`. */
  lemma PassedThenKeys(ks: seq<string>, e: Dict, tail: seq<string>)
    requires Keys(e) == tail
    ensures Keys(AllPassed(ks) + e) == ks + tail
  {
    KeysAppend(AllPassed(ks), e);
    AllPassedKeys(ks);
  }

  /** No key repeats among the executed literals. */
  lemma PreparedLiteralWf(inputFile: string, o: Oracle)
    ensures Wf(PreparedLiteral(inputFile, o))
  {
    var e := PreparedLiteral(inputFile, o);
    var n := FailingStage(inputFile, o);
    PreparedLiteralKeys(inputFile, o);
    if n < 5 {
      PreparedKeysDistinct(n);
      WfFromKeys(e, StageKeys[..n + 1] + [ErrorKey]);
    } else {
      PreparedKeysDistinct(0);
      WfFromKeys(e, StageKeys + [IpKey]);
    }
  }

  /** Started from an empty dictionary, preparation leaves exactly the executed
      stages' literals behind, in order. */
  lemma PreparedDict(inputFile: string, o: Oracle)
    ensures PrepareEmulation(inputFile, o, []).dict == PreparedLiteral(inputFile, o)
  {
    var stages := PreparationStages(inputFile, o);
    var e := PreparedLiteral(inputFile, o);
    RunStagesShortCircuits(stages, []);
    ExecutedEntries(inputFile, o);
    PreparedLiteralWf(inputFile, o);
    assert [] + e == e;
    UpdateAllFresh([], e);
  }

  /** Every stage passes exactly when the outside world answers well at each step. */
  lemma AllStagesPass(inputFile: string, o: Oracle)
    ensures FailingStage(inputFile, o) == 5 <==>
      && o.inputExists && o.extractorRc == 0 && o.archiveExists
      && o.getArchRc <= 0
      && o.tar2DbRc == 0
      && o.imageExists
      && !o.inferRaised && InferredAddress(o.inferMatch).Some? && InferredAddress(o.inferMatch).value != ""
  {
    var stages := PreparationStages(inputFile, o);
    NetworkInferenceOutcome(o);
    assert stages[0] == ExtractImage(inputFile, o);
    assert stages[1] == StoreArchitecture(o);
    assert stages[2] == LoadFilesystem(o);
    assert stages[3] == CreateQemuImage(o);
    assert stages[4] == InferNetworkConfiguration(o);
    assert FailingStage(inputFile, o) == 5 <==>
      !Failed(stages[0]) && !Failed(stages[1]) && !Failed(stages[2]) && !Failed(stages[3]) && !Failed(stages[4]);
  }

  /** Started from an empty dictionary, preparation succeeds iff all five stages
      pass; the dictionary then holds the status key of every executed stage in
      pipeline order, followed by `'error_message'` after a failure or `'ip'`
      after full success, and no other key. */
  lemma PrepareKeys(inputFile: string, o: Oracle)
    ensures PrepareEmulation(inputFile, o, []).status == Success <==> FailingStage(inputFile, o) == 5
    ensures Wf(PrepareEmulation(inputFile, o, []).dict)
    ensures FailingStage(inputFile, o) < 5 ==>
      Keys(PrepareEmulation(inputFile, o, []).dict) == StageKeys[..FailingStage(inputFile, o) + 1] + [ErrorKey]
    ensures FailingStage(inputFile, o) == 5 ==>
      Keys(PrepareEmulation(inputFile, o, []).dict) == StageKeys + [IpKey]
  {
    PrepareStatus(inputFile, o, []);
    PreparedDict(inputFile, o);
    PreparedLiteralKeys(inputFile, o);
    PreparedLiteralWf(inputFile, o);
  }

  /** Preparation succeeds exactly when no stage fails. */
  lemma PrepareStatus(inputFile: string, o: Oracle, d: Dict)
    ensures PrepareEmulation(inputFile, o, d).status == Success <==> FailingStage(inputFile, o) == 5
  {
    RunStagesStatus(PreparationStages(inputFile, o), d);
  }

  /** A successful preparation has recorded the address the emulation step probes. */
  lemma PreparedAddress(inputFile: string, o: Oracle)
    ensures PrepareEmulation(inputFile, o, []).status == Success ==> HasKey(PrepareEmulation(inputFile, o, []).dict, IpKey)
  {
    PrepareKeys(inputFile, o);
    HasKeyKeys(PrepareEmulation(inputFile, o, []).dict, IpKey);
  }

  /** Started from an empty dictionary, every stage before the failing one reads
      SUCCESS, the failing one reads FAILURE, and full success records the parsed
      address under `'ip'` with no FAILURE value anywhere. */
  lemma PrepareValues(inputFile: string, o: Oracle)
    ensures forall i :: 0 <= i < FailingStage(inputFile, o) ==>
      Get(PrepareEmulation(inputFile, o, []).dict, StageKeys[i]) == Some(Status(Success))
    ensures FailingStage(inputFile, o) < 5 ==>
      Get(PrepareEmulation(inputFile, o, []).dict, StageKeys[FailingStage(inputFile, o)]) == Some(Status(Failure))
    ensures FailingStage(inputFile, o) == 5 ==>
      InferredAddress(o.inferMatch).Some? &&
      Get(PrepareEmulation(inputFile, o, []).dict, IpKey) == Some(Text(InferredAddress(o.inferMatch).value))
    ensures FailingStage(inputFile, o) == 5 ==> !HasFailure(PrepareEmulation(inputFile, o, []).dict)
  {
    PreparedDict(inputFile, o);
    PreparedLiteralWf(inputFile, o);
    LiteralPassedValues(inputFile, o);
    if FailingStage(inputFile, o) < 5 {
      LiteralFailedValue(inputFile, o);
    } else {
      LiteralAddressValue(inputFile, o);
    }
  }

  /** Position `i` of the executed literals, for a stage before the last one. */
  lemma LiteralAt(inputFile: string, o: Oracle, i: nat)
    requires i < LastExecuted(inputFile, o)
    ensures PreparedLiteral(inputFile, o)[i] == (StageKeys[i], Status(Success))
  {
  }

  lemma LiteralPassedValues(inputFile: string, o: Oracle)
    requires Wf(PreparedLiteral(inputFile, o))
    ensures forall i :: 0 <= i < FailingStage(inputFile, o) ==>
      Get(PreparedLiteral(inputFile, o), StageKeys[i]) == Some(Status(Success))
  {
    var e := PreparedLiteral(inputFile, o);
    var n := FailingStage(inputFile, o);
    forall i | 0 <= i < n
      ensures Get(e, StageKeys[i]) == Some(Status(Success))
    {
      if i < LastExecuted(inputFile, o) {
        LiteralAt(inputFile, o, i);
        GetAt(e, StageKeys[i], i);
      } else {
        StageFacts(inputFile, o, 4);
        assert e[4] == (StageKeys[4], Status(Success));
        GetAt(e, StageKeys[4], 4);
      }
    }
  }

  lemma LiteralFailedValue(inputFile: string, o: Oracle)
    requires Wf(PreparedLiteral(inputFile, o))
    requires FailingStage(inputFile, o) < 5
    ensures Get(PreparedLiteral(inputFile, o), StageKeys[FailingStage(inputFile, o)]) == Some(Status(Failure))
  {
    var e := PreparedLiteral(inputFile, o);
    var n := FailingStage(inputFile, o);
    StageFacts(inputFile, o, n);
    assert e[n] == (StageKeys[n], Status(Failure));
    GetAt(e, StageKeys[n], n);
  }

  lemma LiteralAddressValue(inputFile: string, o: Oracle)
    requires Wf(PreparedLiteral(inputFile, o))
    requires FailingStage(inputFile, o) == 5
    ensures InferredAddress(o.inferMatch).Some?
    ensures Get(PreparedLiteral(inputFile, o), IpKey) == Some(Text(InferredAddress(o.inferMatch).value))
    ensures !HasFailure(PreparedLiteral(inputFile, o))
  {
    var e := PreparedLiteral(inputFile, o);
    NetworkInferenceOutcome(o);
    assert e[5] == (IpKey, Text(InferredAddress(o.inferMatch).value));
    GetAt(e, IpKey, 5);
    assert forall i :: 0 <= i < |e| ==> e[i].1 != Status(Failure);
  }

  /** With the input missing, preparation fails without running any command. */
  lemma PrepareMissingInput(inputFile: string, o: Oracle, d: Dict)
    requires !o.inputExists
    ensures PrepareEmulation(inputFile, o, d).trace == []
    ensures PrepareEmulation(inputFile, o, d).status == Failure
  {
    var stages := PreparationStages(inputFile, o);
    RunStagesShortCircuits(stages, d);
    assert Failed(stages[0]);
    assert stages[..1] == [stages[0]];
  }

  /** Preparation runs the commands of the executed stages, in pipeline order. */
  lemma PrepareTrace(inputFile: string, o: Oracle, d: Dict)
    requires o.inputExists
    ensures PrepareEmulation(inputFile, o, d).trace == PreparationCommands(inputFile)[..ExecutedCount(PreparationStages(inputFile, o))]
  {
    var stages := PreparationStages(inputFile, o);
    var cmds := PreparationCommands(inputFile);
    var k := ExecutedCount(stages);
    RunStagesShortCircuits(stages, d);
    forall i | 0 <= i < k
      ensures stages[i].trace == [cmds[i]]
    {
      StageFacts(inputFile, o, i);
    }
    TracesOneEach(stages, cmds, k);
  }

  /** The five preparation commands are pairwise different. */
  lemma CommandsDistinct(inputFile: string)
    ensures forall i, j :: 0 <= i < j < 5 ==> PreparationCommands(inputFile)[i] != PreparationCommands(inputFile)[j]
  {
  }

  /** No command of a stage after the first failing one is ever run, and nothing
      but preparation commands is. */
  lemma PrepareRunsNothingLater(inputFile: string, o: Oracle, d: Dict)
    ensures forall j :: ExecutedCount(PreparationStages(inputFile, o)) <= j < 5 ==>
      PreparationCommands(inputFile)[j] !in PrepareEmulation(inputFile, o, d).trace
  {
    var cmds := PreparationCommands(inputFile);
    var k := ExecutedCount(PreparationStages(inputFile, o));
    var trace := PrepareEmulation(inputFile, o, d).trace;
    if o.inputExists {
      PrepareTrace(inputFile, o, d);
      CommandsDistinct(inputFile);
      forall j | k <= j < 5
        ensures cmds[j] !in trace
      {
        assert forall i :: 0 <= i < k ==> trace[i] == cmds[i] != cmds[j];
      }
    } else {
      PrepareMissingInput(inputFile, o, d);
    }
  }

  /** Preparation runs none but its own five commands. */
  lemma PrepareOnlyOwnCommands(inputFile: string, o: Oracle, d: Dict)
    ensures forall i :: 0 <= i < |PrepareEmulation(inputFile, o, d).trace| ==>
      PrepareEmulation(inputFile, o, d).trace[i] in PreparationCommands(inputFile)
  {
    var trace := PrepareEmulation(inputFile, o, d).trace;
    if o.inputExists {
      PrepareTrace(inputFile, o, d);
      var cmds := PreparationCommands(inputFile);
      assert forall i :: 0 <= i < |trace| ==> trace[i] == cmds[i];
    } else {
      PrepareMissingInput(inputFile, o, d);
    }
  }
}

=== FILE: stages.dfy ===
/** The five preparation stages of the Firmadyne wrapper. Each stage reads only the
    oracle (never the result dictionary) and hands back the commands it ran together
    with the dictionary literal it returns. */
module Stages {
  import opened Values
  import opened OrderedDict
  import opened Text
  import opened Externals

  const ExtractionKey := "extraction"
  const ArchitectureKey := "store_architecture"
  const LoadKey := "load_filesystem"
  const ImageKey := "create_qemu_image"
  const NetworkKey := "infer_network_configuration"
  const IpKey := "ip"
  const ErrorKey := "error_message"

  /** The status keys of the five stages, in pipeline order. */
  const StageKeys: seq<string> := [ExtractionKey, ArchitectureKey, LoadKey, ImageKey, NetworkKey]

  const InvalidInputMessage := "Invalid path to the input file"
  const ArchiveMissingMessage := "It wasn't possible to extract the filesystem"
  const ExtractorFailedMessage := "ERROR executing the extraction script"
  const ArchitectureMessage := "ERROR occurred while executing the store_architecture script."
  const LoadMessage := "ERROR occurred while executing the load_filesystem script"
  const ImageMessage := "It wasn't possible to create the QEMU image"
  const NoAddressMessage := "No ip_address could be inferred"

  /** The message of the `except Exception` branch, which quotes `str(child)`. */
  function InferErrorMessage(child: string): string
  {
    "Error executing infer_network script.\n" + child
  }

  /** What one stage hands back: the commands it ran and its dictionary literal. */
  datatype StageRun = StageRun(trace: seq<Command>, entries: Dict)

  /** `ResultType.FAILURE in result_attribute.values()` */
  predicate Failed(s: StageRun)
  {
    HasFailure(s.entries)
  }

  /** `{key: SUCCESS}` */
  function Passed(key: string): (d: Dict)
    ensures !HasFailure(d)
  {
    [(key, Status(Success))]
  }

  /** `{key: FAILURE, 'error_message': message}` */
  function FailedWith(key: string, message: string): (d: Dict)
    ensures HasFailure(d)
  {
    var d := [(key, Status(Failure)), (ErrorKey, Text(message))];
    assert d[0].1 == Status(Failure);
    d
  }

  /** The shape every failing stage reports: its own key with FAILURE, then one message. */
  predicate FailureReport(entries: Dict, key: string)
  {
    |entries| == 2 && entries[0] == (key, Status(Failure)) && entries[1].0 == ErrorKey && entries[1].1.Text?
  }

  /** `extract_image`: the existence of the input is checked before the extractor
      runs; success needs both a zero exit code and the archive on disk. */
  function ExtractImage(inputFile: string, o: Oracle): (r: StageRun)
    ensures !o.inputExists ==> r.trace == [] && r.entries == FailedWith(ExtractionKey, InvalidInputMessage)
    ensures o.inputExists ==> r.trace == [RunExtractor(inputFile)]
    ensures !Failed(r) <==> o.inputExists && o.extractorRc == 0 && o.archiveExists
    ensures Failed(r) ==> FailureReport(r.entries, ExtractionKey)
    ensures !Failed(r) ==> r.entries == Passed(ExtractionKey)
    ensures o.inputExists && o.extractorRc == 0 && !o.archiveExists ==>
      r.entries == FailedWith(ExtractionKey, ArchiveMissingMessage)
    ensures o.inputExists && o.extractorRc != 0 ==> r.entries == FailedWith(ExtractionKey, ExtractorFailedMessage)
  {
    if !o.inputExists then StageRun([], FailedWith(ExtractionKey, InvalidInputMessage))
    else
      var trace := [RunExtractor(inputFile)];
      if o.extractorRc == 0 then
        if o.archiveExists then StageRun(trace, Passed(ExtractionKey))
        else StageRun(trace, FailedWith(ExtractionKey, ArchiveMissingMessage))
      else StageRun(trace, FailedWith(ExtractionKey, ExtractorFailedMessage))
  }

  /** `store_architecture`: only a strictly positive exit code is a failure. */
  function StoreArchitecture(o: Oracle): (r: StageRun)
    ensures r.trace == [RunGetArch]
    ensures Failed(r) <==> o.getArchRc > 0
    ensures Failed(r) ==> r.entries == FailedWith(ArchitectureKey, ArchitectureMessage)
    ensures !Failed(r) ==> r.entries == Passed(ArchitectureKey)
  {
    if o.getArchRc > 0 then StageRun([RunGetArch], FailedWith(ArchitectureKey, ArchitectureMessage))
    else StageRun([RunGetArch], Passed(ArchitectureKey))
  }

  /** `load_filesystem`: only a zero exit code is a success. */
  function LoadFilesystem(o: Oracle): (r: StageRun)
    ensures r.trace == [RunTar2Db]
    ensures !Failed(r) <==> o.tar2DbRc == 0
    ensures Failed(r) ==> r.entries == FailedWith(LoadKey, LoadMessage)
    ensures !Failed(r) ==> r.entries == Passed(LoadKey)
  {
    if o.tar2DbRc == 0 then StageRun([RunTar2Db], Passed(LoadKey))
    else StageRun([RunTar2Db], FailedWith(LoadKey, LoadMessage))
  }

  /** `create_qemu_image`: the builder always runs; the disk image on disk decides. */
  function CreateQemuImage(o: Oracle): (r: StageRun)
    ensures r.trace == [RunMakeImage]
    ensures !Failed(r) <==> o.imageExists
    ensures Failed(r) ==> r.entries == FailedWith(ImageKey, ImageMessage)
    ensures !Failed(r) ==> r.entries == Passed(ImageKey)
  {
    if !o.imageExists then StageRun([RunMakeImage], FailedWith(ImageKey, ImageMessage))
    else StageRun([RunMakeImage], Passed(ImageKey))
  }

  /** `str(child.after).split("'")[1]`, or `None` where indexing raises `IndexError`. */
  function InferredAddress(matched: string): Option<string>
  {
    var fields := Split(matched, '\'');
    if |fields| >= 2 then Some(fields[1]) else None
  }

  /** `infer_network_configuration`: any exception (including the `IndexError` of a
      match without a quote) gives the script-error message; an empty address gives
      its own message; success records the address under `'ip'`. */
  function InferNetworkConfiguration(o: Oracle): (r: StageRun)
    ensures r.trace == [SpawnInferNetwork]
    ensures Failed(r) ==> FailureReport(r.entries, NetworkKey)
  {
    var address := InferredAddress(o.inferMatch);
    if o.inferRaised || address.None? then
      StageRun([SpawnInferNetwork], FailedWith(NetworkKey, InferErrorMessage(o.inferChild)))
    else if address.value == "" then
      StageRun([SpawnInferNetwork], FailedWith(NetworkKey, NoAddressMessage))
    else
      StageRun([SpawnInferNetwork], Passed(NetworkKey) + [(IpKey, Text(address.value))])
  }

  /** Piece 1 of the split is the text between the first and the second quote. */
  lemma AddressBetweenQuotes(a: string, b: string, c: string)
    requires '\'' !in a && '\'' !in b
    ensures InferredAddress(a + "'" + b + "'" + c) == Some(b)
  {
    SecondFieldBetween(a, b, c, '\'');
  }

  /** With a single quote, the address is everything after it. */
  lemma AddressAfterOnlyQuote(a: string, b: string)
    requires '\'' !in a && '\'' !in b
    ensures InferredAddress(a + "'" + b) == Some(b)
  {
    SecondFieldLast(a, b, '\'');
  }

  /** Indexing piece 1 raises exactly when the text has no quote at all. */
  lemma AddressExistsIffQuoted(matched: string)
    ensures InferredAddress(matched).Some? <==> '\'' in matched
  {
    SecondFieldExists(matched, '\'');
  }

  /** Any text holding the quote the pattern requires has piece 1, whether it is the
      plain match or its Python 3 rendering `b"..."`, where the quote is not first. */
  lemma MatchedTextHasAddress(prefix: string, matched: string)
    requires |matched| >= 1 && matched[0] == '\''
    ensures InferredAddress(prefix + matched).Some?
  {
    assert (prefix + matched)[|prefix|] == '\'';
    AddressExistsIffQuoted(prefix + matched);
  }

  /** The outcome of network inference in terms of the exception flag and the
      parsed address: success iff nothing raised and the address is non-empty;
      success records exactly that address under `'ip'`. */
  lemma NetworkInferenceOutcome(o: Oracle)
    ensures var r := InferNetworkConfiguration(o);
      !Failed(r) <==> !o.inferRaised && InferredAddress(o.inferMatch).Some? && InferredAddress(o.inferMatch).value != ""
    ensures var r := InferNetworkConfiguration(o);
      !Failed(r) ==> r.entries == [(NetworkKey, Status(Success)), (IpKey, Text(InferredAddress(o.inferMatch).value))]
    ensures o.inferRaised || '\'' !in o.inferMatch ==>
      InferNetworkConfiguration(o).entries == FailedWith(NetworkKey, InferErrorMessage(o.inferChild))
    ensures !o.inferRaised && InferredAddress(o.inferMatch) == Some("") ==>
      InferNetworkConfiguration(o).entries == FailedWith(NetworkKey, NoAddressMessage)
  {
    AddressExistsIffQuoted(o.inferMatch);
    var r := InferNetworkConfiguration(o);
    var address := InferredAddress(o.inferMatch);
    if !o.inferRaised && address.Some? && address.value != "" {
      assert !HasFailure(r.entries) by {
        HasFailureAppend(Passed(NetworkKey), [(IpKey, Text(address.value))]);
      }
    }
  }

  /** The address between the delimiters of a well-formed match is recorded as is. */
  lemma InferenceExample(o: Oracle)
    requires !o.inferRaised && o.inferMatch == "'203.0.113.5')"
    ensures InferNetworkConfiguration(o).entries == [(NetworkKey, Status(Success)), (IpKey, Text("203.0.113.5"))]
  {
    assert o.inferMatch == [] + ['\''] + "203.0.113.5" + ['\''] + ")";
    AddressBetweenQuotes("", "203.0.113.5", ")");
    NetworkInferenceOutcome(o);
  }

  /** The same holds of the Python 3 rendering `str(b"...")` of the matched bytes. */
  lemma InferenceBytesExample(o: Oracle)
    requires !o.inferRaised && o.inferMatch == "b\"'203.0.113.5')\""
    ensures InferNetworkConfiguration(o).entries == [(NetworkKey, Status(Success)), (IpKey, Text("203.0.113.5"))]
  {
    BytesRenderingAddress();
    NetworkInferenceOutcome(o);
  }

  lemma BytesRenderingAddress()
    ensures InferredAddress("b\"'203.0.113.5')\"") == Some("203.0.113.5")
  {
    assert "b\"'203.0.113.5')\"" == "b\"" + ['\''] + "203.0.113.5" + ['\''] + ")\"";
    AddressBetweenQuotes("b\"", "203.0.113.5", ")\"");
  }

  /** A match that starts with two quotes parses to the empty address. */
  lemma EmptyAddressExample(o: Oracle)
    requires !o.inferRaised && o.inferMatch == "''10.0.0.1')"
    ensures InferNetworkConfiguration(o).entries == FailedWith(NetworkKey, NoAddressMessage)
  {
    assert o.inferMatch == "" + "'" + "" + "'" + "10.0.0.1')";
    AddressBetweenQuotes("", "", "10.0.0.1')");
    NetworkInferenceOutcome(o);
  }

  /** `store_architecture` and `load_filesystem` read the same exit code differently:
      a negative code (a process killed by a signal) passes the first and fails the
      second. */
  lemma NegativeExitCodes(o: Oracle)
    requires o.getArchRc < 0 && o.tar2DbRc == o.getArchRc
    ensures !Failed(StoreArchitecture(o)) && Failed(LoadFilesystem(o))
  {
  }

  /** The exit code of the image builder never matters: two worlds that agree on the
      disk image give the same stage result. */
  lemma ImageIgnoresExitCode(o1: Oracle, o2: Oracle)
    requires o1.imageExists == o2.imageExists
    ensures CreateQemuImage(o1) == CreateQemuImage(o2)
  {
  }
}

=== FILE: text.dfy ===
/** The two string operations the orchestrator relies on: Python's `str.split` on a
    one-character separator, and the substring test `t in s`. */
module Text {

  /** `s.split(sep)`: the maximal separator-free pieces of `s`, in order; there is
      always one more piece than there are separators. */
  function Split(s: string, sep: char): (fields: seq<string>)
    ensures |fields| >= 1
    ensures forall i :: 0 <= i < |fields| ==> sep !in fields[i]
  {
    if s == [] then [""]
    else
      var rest := Split(s[1..], sep);
      if s[0] == sep then [""] + rest
      else [[s[0]] + rest[0]] + rest[1..]
  }

  /** `sep.join(fields)`: the inverse of `Split`. */
  function Join(fields: seq<string>, sep: char): string
    requires |fields| >= 1
  {
    if |fields| == 1 then fields[0] else fields[0] + [sep] + Join(fields[1..], sep)
  }

  /** Splitting and joining back gives the original text. */
  lemma {:induction false} JoinSplit(s: string, sep: char)
    ensures Join(Split(s, sep), sep) == s
  {
    if s != [] {
      JoinSplit(s[1..], sep);
      JoinSplitStep(s, sep);
    }
  }

  /** One step of `JoinSplit`: the first character is put back in front. */
  lemma JoinSplitStep(s: string, sep: char)
    requires s != []
    requires Join(Split(s[1..], sep), sep) == s[1..]
    ensures Join(Split(s, sep), sep) == s
  {
    assert s == [s[0]] + s[1..];
    if s[0] == sep {
      JoinSplitSeparator(s, sep);
    } else {
      JoinSplitOther(s, sep);
    }
  }

  lemma JoinSplitSeparator(s: string, sep: char)
    requires s != [] && s[0] == sep
    requires Join(Split(s[1..], sep), sep) == s[1..]
    ensures Join(Split(s, sep), sep) == [sep] + s[1..]
  {
    var rest := Split(s[1..], sep);
    assert Split(s, sep) == [""] + rest;
    JoinCons("", rest, sep);
  }

  lemma JoinSplitOther(s: string, sep: char)
    requires s != [] && s[0] != sep
    requires Join(Split(s[1..], sep), sep) == s[1..]
    ensures Join(Split(s, sep), sep) == [s[0]] + s[1..]
  {
    var rest := Split(s[1..], sep);
    var head := [s[0]] + rest[0];
    var tail := rest[1..];
    assert Split(s, sep) == [head] + tail;
    assert [rest[0]] + tail == rest;
    JoinCons(head, tail, sep);
    JoinCons(rest[0], tail, sep);
    if tail != [] {
      var j := Join(tail, sep);
      calc {
        Join(Split(s, sep), sep);
        head + [sep] + j;
        [s[0]] + (rest[0] + [sep] + j);
        [s[0]] + Join(rest, sep);
      }
    }
  }

  /** Joining a piece in front of further pieces puts one separator between them. */
  lemma JoinCons(head: string, tail: seq<string>, sep: char)
    ensures Join([head] + tail, sep) == if tail == [] then head else head + [sep] + Join(tail, sep)
  {
    assert ([head] + tail)[1..] == tail;
  }

  /** Joining separator-free pieces and splitting again gives the same pieces. */
  lemma {:induction false} SplitJoin(fields: seq<string>, sep: char)
    requires |fields| >= 1
    requires forall i :: 0 <= i < |fields| ==> sep !in fields[i]
    ensures Split(Join(fields, sep), sep) == fields
    decreases |fields|
  {
    if |fields| == 1 {
      SplitFree(fields[0], sep);
    } else {
      SplitJoin(fields[1..], sep);
      SplitAfterFirst(fields[0], sep, Join(fields[1..], sep));
      assert [fields[0]] + fields[1..] == fields;
    }
  }

  /** Text without the separator is a single piece. */
  lemma {:induction false} SplitFree(a: string, sep: char)
    requires sep !in a
    ensures Split(a, sep) == [a]
  {
    if a != [] {
      assert forall x :: x in a[1..] ==> x in a;
      SplitFree(a[1..], sep);
      assert [a[0]] + a[1..] == a;
    }
  }

  /** The first piece ends at the first separator. */
  lemma {:induction false} SplitAfterFirst(a: string, sep: char, t: string)
    requires sep !in a
    ensures Split(a + [sep] + t, sep) == [a] + Split(t, sep)
  {
    if a == [] {
      assert a + [sep] + t == [sep] + t;
      assert ([sep] + t)[1..] == t;
    } else {
      SplitAfterFirst(a[1..], sep, t);
      assert (a + [sep] + t)[1..] == a[1..] + [sep] + t;
      assert [a[0]] + a[1..] == a;
    }
  }

  /** There is one more piece than there are separators. */
  lemma {:induction false} SplitCount(s: string, sep: char)
    ensures |Split(s, sep)| == multiset(s)[sep] + 1
  {
    if s != [] {
      SplitCount(s[1..], sep);
      assert s == [s[0]] + s[1..];
    }
  }

  /** The piece at index 1 exists iff the text contains the separator at all. */
  lemma SecondFieldExists(s: string, sep: char)
    ensures |Split(s, sep)| >= 2 <==> sep in s
  {
    SplitCount(s, sep);
    assert sep in s <==> sep in multiset(s);
  }

  /** Piece 1 is exactly the text between the first and the second separator. */
  lemma SecondFieldBetween(a: string, b: string, c: string, sep: char)
    requires sep !in a && sep !in b
    ensures |Split(a + [sep] + b + [sep] + c, sep)| >= 2
    ensures Split(a + [sep] + b + [sep] + c, sep)[1] == b
  {
    assert a + [sep] + b + [sep] + c == a + [sep] + (b + [sep] + c);
    SplitAfterFirst(a, sep, b + [sep] + c);
    SplitAfterFirst(b, sep, c);
  }

  /** With a single separator, piece 1 is everything after it. */
  lemma SecondFieldLast(a: string, b: string, sep: char)
    requires sep !in a && sep !in b
    ensures Split(a + [sep] + b, sep) == [a, b]
  {
    SplitAfterFirst(a, sep, b);
    SplitFree(b, sep);
  }

  /** Reference meaning of `t in s`: `t` occurs at some position of `s`. */
  ghost predicate IsSubstring(t: string, s: string)
  {
    exists i :: 0 <= i && OccursAt(t, s, i)
  }

  /** `t` starts at position `i` of `s`. */
  ghost predicate OccursAt(t: string, s: string, i: nat)
  {
    i + |t| <= |s| && s[i..i + |t|] == t
  }

  /** `t` occurs in any text that has it in the middle. */
  lemma OccursInMiddle(a: string, t: string, b: string)
    ensures IsSubstring(t, a + t + b)
  {
    assert (a + t + b)[|a|..|a| + |t|] == t;
    assert OccursAt(t, a + t + b, |a|);
  }

  /** `t in s`, scanning `s` from the left. */
  function Contains(s: string, t: string): bool
    decreases |s|
  {
    if |t| > |s| then false
    else if s[..|t|] == t then true
    else Contains(s[1..], t)
  }

  /** The scan agrees with the reference meaning, in both directions. */
  lemma {:induction false} ContainsIsSubstring(s: string, t: string)
    ensures Contains(s, t) <==> IsSubstring(t, s)
    decreases |s|
  {
    if |t| > |s| {
    } else if s[..|t|] == t {
      assert OccursAt(t, s, 0);
    } else {
      ContainsIsSubstring(s[1..], t);
      if IsSubstring(t, s) {
        var i: nat :| OccursAt(t, s, i);
        assert i != 0;
        assert s[1..][i - 1..i - 1 + |t|] == s[i..i + |t|];
        assert OccursAt(t, s[1..], i - 1);
      }
      if IsSubstring(t, s[1..]) {
        var i: nat :| OccursAt(t, s[1..], i);
        assert s[i + 1..i + 1 + |t|] == s[1..][i..i + |t|];
        assert OccursAt(t, s, i + 1);
      }
    }
  }
}

=== FILE: values.dfy ===
/** Values shared by every part of the orchestration model. */
module Values {

  /** The conventional Some/None datatype, used for dictionary lookups. */
  datatype Option<+T> = None | Some(value: T)

  /** The two-valued status every stage reports (the source's `ResultType`). */
  datatype ResultType = Success | Failure

  /** A value stored in the result dictionary: either a stage status or a piece of
      text (an error message, the inferred address, the final summary). */
  datatype Value = Status(result: ResultType) | Text(text: string)
}

=== FILE: wrapper.dfy ===
/** The run coordinator of the Firmadyne wrapper: preparation, emulation and
    analysis with global short-circuiting, the final summary string, and the
    cleanup scripts before and after the run. */
module Wrapper {
  import opened Values
  import opened OrderedDict
  import opened Externals
  import opened Stages
  import opened Preparation
  import opened Emulation

  /** The warm-up time `execute_firmadyne` passes to the emulation step, in seconds. */
  const EmulationInitTime: nat := 40

  const ResultKey := "result"
  const SuccessSummary := "Firmadyne finished all Steps succesfully!"
  const FailureSummary := "Firmadyne failed!"

  /** What `execute_firmadyne` returns, plus the commands it ran and the emulator
      process it left behind (if it started one). */
  datatype Execution = Execution(status: ResultType, dict: Dict, trace: seq<Command>, process: Option<Process>)

  /** The analysis step ran somewhere in the trace. */
  predicate RanAnalysis(trace: seq<Command>)
  {
    exists i :: 0 <= i < |trace| && trace[i].RunAnalysis?
  }

  /** `execute_firmadyne` once preparation has returned: emulation only after a
      successful preparation; analysis only when no FAILURE value is in the
      dictionary after emulation. The emulation step needs the recorded address. */
  function Coordinate(prep: Progress, o: Oracle): (x: Execution)
    requires prep.status == Success ==> HasKey(prep.dict, IpKey)
    ensures x.process.Some? <==> prep.status == Success
    ensures x.status == Success ==> prep.status == Success
    ensures |prep.trace| <= |x.trace| && x.trace[..|prep.trace|] == prep.trace
  {
    if prep.status == Failure then Execution(Failure, prep.dict, prep.trace, None)
    else
      var emulation := StartEmulation(prep.dict, EmulationInitTime, o);
      var trace := prep.trace + emulation.trace;
      if HasFailure(emulation.dict) then Execution(Failure, emulation.dict, trace, Some(emulation.process))
      else
        var analyzed := trace + [RunAnalysis(emulation.dict)];
        if o.analysis == Failure then Execution(Failure, emulation.dict, analyzed, Some(emulation.process))
        else Execution(Success, emulation.dict, analyzed, Some(emulation.process))
  }

  /** A failed preparation ends the run as it stands: no emulator, no analysis. */
  lemma CoordinateAfterFailure(prep: Progress, o: Oracle)
    requires prep.status == Failure
    ensures Coordinate(prep, o) == Execution(Failure, prep.dict, prep.trace, None)
  {
  }

  /** What a successful preparation hands to the emulation step: the recorded
      address, a well-formed dictionary with no FAILURE value, and neither of the
      keys the emulation step writes. */
  predicate ReadyForEmulation(prep: Progress)
  {
    && prep.status == Success && HasKey(prep.dict, IpKey) && Wf(prep.dict) && !HasFailure(prep.dict)
    && !HasKey(prep.dict, EmulationKey) && !HasKey(prep.dict, ErrorKey)
  }

  /** After such a preparation, the run succeeds iff the probe and the analysis do. */
  lemma CoordinateStatus(prep: Progress, o: Oracle)
    requires ReadyForEmulation(prep)
    ensures Coordinate(prep, o).status == Success <==> NetworkIsAvailable(o.pingRc, o.pingOutput) && o.analysis == Success
    ensures Coordinate(prep, o).process.Some?
  {
    StartEmulationAppends(prep.dict, EmulationInitTime, o);
  }

  /** After such a preparation, the emulation literal is appended to the dictionary. */
  lemma CoordinateDict(prep: Progress, o: Oracle)
    requires ReadyForEmulation(prep)
    ensures Coordinate(prep, o).dict == prep.dict + EmulationEntries(NetworkIsAvailable(o.pingRc, o.pingOutput))
  {
    StartEmulationAppends(prep.dict, EmulationInitTime, o);
  }

  /** After such a preparation, the emulator is launched, the warm-up passes and one
      probe targets the recorded address; the analysis follows iff the probe succeeded. */
  lemma CoordinateTrace(prep: Progress, o: Oracle)
    requires ReadyForEmulation(prep)
    ensures Coordinate(prep, o).trace ==
      prep.trace + [LaunchEmulation, Sleep(EmulationInitTime), Ping(Get(prep.dict, IpKey).value)]
      + (if NetworkIsAvailable(o.pingRc, o.pingOutput) then [RunAnalysis(Coordinate(prep, o).dict)] else [])
  {
    StartEmulationAppends(prep.dict, EmulationInitTime, o);
  }

  /** `execute_firmadyne`: prepare into an empty dictionary, then coordinate. */
  function ExecuteFirmadyne(inputFile: string, o: Oracle): Execution
  {
    PreparedAddress(inputFile, o);
    Coordinate(PrepareEmulation(inputFile, o, []), o)
  }

  /** The full preparation leaves a dictionary the emulation step can run on and
      whose only FAILURE value can come from emulation. */
  lemma PreparedForEmulation(inputFile: string, o: Oracle)
    requires FailingStage(inputFile, o) == 5
    ensures var prep := PrepareEmulation(inputFile, o, []);
      && prep.status == Success
      && HasKey(prep.dict, IpKey) && Wf(prep.dict) && !HasFailure(prep.dict)
      && !HasKey(prep.dict, EmulationKey) && !HasKey(prep.dict, ErrorKey) && !HasKey(prep.dict, ResultKey)
      && Keys(prep.dict) == StageKeys + [IpKey]
  {
    var d := PrepareEmulation(inputFile, o, []).dict;
    PrepareKeys(inputFile, o);
    PrepareValues(inputFile, o);
    HasKeyKeys(d, IpKey);
    HasKeyKeys(d, EmulationKey);
    HasKeyKeys(d, ErrorKey);
    HasKeyKeys(d, ResultKey);
  }

  /** A failed preparation ends the run: no emulator is launched, no analysis runs,
      and dictionary and commands are exactly those of the preparation. */
  lemma ExecuteStopsAfterPreparation(inputFile: string, o: Oracle)
    requires FailingStage(inputFile, o) < 5
    ensures ExecuteFirmadyne(inputFile, o).status == Failure
    ensures ExecuteFirmadyne(inputFile, o).dict == PrepareEmulation(inputFile, o, []).dict
    ensures ExecuteFirmadyne(inputFile, o).trace == PrepareEmulation(inputFile, o, []).trace
    ensures ExecuteFirmadyne(inputFile, o).process.None?
    ensures LaunchEmulation !in ExecuteFirmadyne(inputFile, o).trace
    ensures !RanAnalysis(ExecuteFirmadyne(inputFile, o).trace)
  {
    PrepareStatus(inputFile, o, []);
    CoordinateAfterFailure(PrepareEmulation(inputFile, o, []), o);
    PreparationLaunchesNothing(inputFile, o);
  }

  /** Preparation neither launches the emulator nor runs the analysis. */
  lemma PreparationLaunchesNothing(inputFile: string, o: Oracle)
    ensures LaunchEmulation !in PrepareEmulation(inputFile, o, []).trace
    ensures !RanAnalysis(PrepareEmulation(inputFile, o, []).trace)
  {
    PrepareOnlyOwnCommands(inputFile, o, []);
    assert LaunchEmulation !in PreparationCommands(inputFile) && !RanAnalysis(PreparationCommands(inputFile));
    DrawnFrom(PrepareEmulation(inputFile, o, []).trace, PreparationCommands(inputFile));
  }

  /** A trace drawn from `cmds` launches and analyses nothing when `cmds` does not. */
  lemma DrawnFrom(t: seq<Command>, cmds: seq<Command>)
    requires forall i :: 0 <= i < |t| ==> t[i] in cmds
    requires LaunchEmulation !in cmds && !RanAnalysis(cmds)
    ensures LaunchEmulation !in t && !RanAnalysis(t)
  {
  }

  /** After a full preparation the emulation literal is appended to the dictionary. */
  lemma ExecuteDictAfterPreparation(inputFile: string, o: Oracle)
    requires FailingStage(inputFile, o) == 5
    ensures ExecuteFirmadyne(inputFile, o).dict ==
      PrepareEmulation(inputFile, o, []).dict + EmulationEntries(NetworkIsAvailable(o.pingRc, o.pingOutput))
  {
    PreparedForEmulation(inputFile, o);
    CoordinateDict(PrepareEmulation(inputFile, o, []), o);
  }

  /** After a full preparation the emulator is launched, the warm-up passes and one
      probe targets the recorded address; the analysis follows iff the probe succeeded. */
  lemma ExecuteTraceAfterPreparation(inputFile: string, o: Oracle)
    requires FailingStage(inputFile, o) == 5
    ensures HasKey(PrepareEmulation(inputFile, o, []).dict, IpKey)
    ensures ExecuteFirmadyne(inputFile, o).trace ==
      PrepareEmulation(inputFile, o, []).trace
      + [LaunchEmulation, Sleep(EmulationInitTime), Ping(Get(PrepareEmulation(inputFile, o, []).dict, IpKey).value)]
      + (if NetworkIsAvailable(o.pingRc, o.pingOutput) then [RunAnalysis(ExecuteFirmadyne(inputFile, o).dict)] else [])
    ensures PrepareEmulation(inputFile, o, []).trace == PreparationCommands(inputFile)
  {
    AllStagesPass(inputFile, o);
    PrepareTrace(inputFile, o, []);
    PreparedForEmulation(inputFile, o);
    CoordinateTrace(PrepareEmulation(inputFile, o, []), o);
  }

  /** After such a preparation (which itself ran no analysis), the analysis runs
      iff the probe succeeded. */
  lemma CoordinateAnalysis(prep: Progress, o: Oracle)
    requires ReadyForEmulation(prep)
    requires !RanAnalysis(prep.trace)
    ensures RanAnalysis(Coordinate(prep, o).trace) <==> NetworkIsAvailable(o.pingRc, o.pingOutput)
  {
    var x := Coordinate(prep, o);
    CoordinateTrace(prep, o);
    var pre := prep.trace + [LaunchEmulation, Sleep(EmulationInitTime), Ping(Get(prep.dict, IpKey).value)];
    assert forall i :: 0 <= i < |pre| ==> !pre[i].RunAnalysis?;
    if NetworkIsAvailable(o.pingRc, o.pingOutput) {
      assert x.trace[|pre|].RunAnalysis?;
    } else {
      assert x.trace == pre;
    }
  }

  /** After such a preparation the keys are the preparation's, then `'emulation'`
      and, after an unreachable network, `'error_message'`. */
  lemma CoordinateKeys(prep: Progress, o: Oracle)
    requires ReadyForEmulation(prep)
    ensures Wf(Coordinate(prep, o).dict)
    ensures Keys(Coordinate(prep, o).dict) == Keys(prep.dict) +
      (if NetworkIsAvailable(o.pingRc, o.pingOutput) then [EmulationKey] else [EmulationKey, ErrorKey])
  {
    var entries := EmulationEntries(NetworkIsAvailable(o.pingRc, o.pingOutput));
    CoordinateWf(prep, o);
    CoordinateDict(prep, o);
    KeysAppend(prep.dict, entries);
    EmulationEntriesKeys(NetworkIsAvailable(o.pingRc, o.pingOutput));
  }

  lemma CoordinateWf(prep: Progress, o: Oracle)
    requires ReadyForEmulation(prep)
    ensures Wf(Coordinate(prep, o).dict)
  {
    assert Coordinate(prep, o).dict == StartEmulation(prep.dict, EmulationInitTime, o).dict;
    StartEmulationFrame(prep.dict, EmulationInitTime, o);
  }

  /** After a full preparation, the analysis runs iff the probe succeeded. */
  lemma AnalysisAfterPreparation(inputFile: string, o: Oracle)
    requires FailingStage(inputFile, o) == 5
    ensures RanAnalysis(ExecuteFirmadyne(inputFile, o).trace) <==> NetworkIsAvailable(o.pingRc, o.pingOutput)
  {
    var prep := PrepareEmulation(inputFile, o, []);
    PreparedForEmulation(inputFile, o);
    PreparationLaunchesNothing(inputFile, o);
    CoordinateAnalysis(prep, o);
  }

  /** The run succeeds iff preparation, emulation and analysis all succeed. */
  lemma ExecuteSucceedsIff(inputFile: string, o: Oracle)
    ensures ExecuteFirmadyne(inputFile, o).status == Success <==>
      FailingStage(inputFile, o) == 5 && NetworkIsAvailable(o.pingRc, o.pingOutput) && o.analysis == Success
  {
    if FailingStage(inputFile, o) < 5 {
      ExecuteStopsAfterPreparation(inputFile, o);
    } else {
      PreparedForEmulation(inputFile, o);
      CoordinateStatus(PrepareEmulation(inputFile, o, []), o);
    }
  }

  /** The analysis runs iff preparation and emulation both succeeded. */
  lemma AnalysisRunsIff(inputFile: string, o: Oracle)
    ensures RanAnalysis(ExecuteFirmadyne(inputFile, o).trace) <==>
      FailingStage(inputFile, o) == 5 && NetworkIsAvailable(o.pingRc, o.pingOutput)
  {
    if FailingStage(inputFile, o) < 5 {
      ExecuteStopsAfterPreparation(inputFile, o);
    } else {
      AnalysisAfterPreparation(inputFile, o);
    }
  }

  /** A final dictionary and the commands run to produce it: what `firmadyne` writes,
      and, for `main`, the report written together with every command of the
      invocation. */
  datatype Report = Report(dict: Dict, trace: seq<Command>)

  /** The summary string for a run outcome. */
  function Summary(status: ResultType): string
  {
    if status == Success then SuccessSummary else FailureSummary
  }

  /** `firmadyne`: run, set `'result'` to the summary, write the dictionary out. */
  function Firmadyne(inputFile: string, o: Oracle): (r: Report)
    ensures r.trace == ExecuteFirmadyne(inputFile, o).trace + [WriteResults(r.dict)]
    ensures Get(r.dict, ResultKey) == Some(Text(Summary(ExecuteFirmadyne(inputFile, o).status)))
  {
    var x := ExecuteFirmadyne(inputFile, o);
    var report := Update(x.dict, ResultKey, Text(Summary(x.status)));
    Report(report, x.trace + [WriteResults(report)])
  }

  /** After a failed preparation the run's keys are the preparation's. */
  lemma ExecuteKeysAfterFailure(inputFile: string, o: Oracle)
    requires FailingStage(inputFile, o) < 5
    ensures Wf(ExecuteFirmadyne(inputFile, o).dict)
    ensures Keys(ExecuteFirmadyne(inputFile, o).dict) == StageKeys[..FailingStage(inputFile, o) + 1] + [ErrorKey]
  {
    PrepareKeys(inputFile, o);
    ExecuteStopsAfterPreparation(inputFile, o);
  }

  /** After a full preparation the run's keys are the preparation's, then
      `'emulation'` and, after an unreachable network, `'error_message'`. */
  lemma ExecuteKeysAfterPreparation(inputFile: string, o: Oracle)
    requires FailingStage(inputFile, o) == 5
    ensures Wf(ExecuteFirmadyne(inputFile, o).dict)
    ensures Keys(ExecuteFirmadyne(inputFile, o).dict) == StageKeys + [IpKey] +
      (if NetworkIsAvailable(o.pingRc, o.pingOutput) then [EmulationKey] else [EmulationKey, ErrorKey])
  {
    PreparedForEmulation(inputFile, o);
    CoordinateKeys(PrepareEmulation(inputFile, o, []), o);
  }

  /** Every key the run itself can write. */
  const RunKeys: seq<string> := StageKeys + [IpKey, ErrorKey, EmulationKey]

  /** The run writes only keys of its own stages. */
  lemma ExecuteKeysKnown(inputFile: string, o: Oracle)
    ensures forall k :: k in Keys(ExecuteFirmadyne(inputFile, o).dict) ==> k in RunKeys
  {
    var n := FailingStage(inputFile, o);
    if n < 5 {
      ExecuteKeysAfterFailure(inputFile, o);
      assert forall k :: k in StageKeys[..n + 1] ==> k in StageKeys;
    } else {
      ExecuteKeysAfterPreparation(inputFile, o);
    }
  }

  /** `'result'` is not among the keys the run itself writes. */
  lemma ExecuteLeavesResultFree(inputFile: string, o: Oracle)
    ensures !HasKey(ExecuteFirmadyne(inputFile, o).dict, ResultKey)
  {
    ExecuteKeysKnown(inputFile, o);
    assert ResultKey !in RunKeys;
    HasKeyKeys(ExecuteFirmadyne(inputFile, o).dict, ResultKey);
  }

  /** `'result'` is appended as the last key: the run's own entries come before it
      unchanged. The summary reads the success sentence iff preparation, emulation
      and analysis all succeeded, and the failure sentence otherwise. */
  lemma FirmadyneSummary(inputFile: string, o: Oracle)
    ensures var ok := FailingStage(inputFile, o) == 5 && NetworkIsAvailable(o.pingRc, o.pingOutput) && o.analysis == Success;
      Get(Firmadyne(inputFile, o).dict, ResultKey) == Some(Text(if ok then SuccessSummary else FailureSummary))
    ensures Firmadyne(inputFile, o).dict ==
      ExecuteFirmadyne(inputFile, o).dict + [(ResultKey, Text(Summary(ExecuteFirmadyne(inputFile, o).status)))]
  {
    ExecuteSucceedsIff(inputFile, o);
    ExecuteLeavesResultFree(inputFile, o);
  }

  /** The value `clean_firmadyne` returns and the commands it ran. */
  datatype Cleanup = Cleanup(code: int, trace: seq<Command>)

  /** `clean_firmadyne`: run delete.sh; a strictly positive exit code stops there
      and returns 0, anything else runs additional_delete.sh and returns 1. */
  function CleanFirmadyne(deleteRc: int): (c: Cleanup)
    ensures |c.trace| >= 1 && c.trace[0] == RunDelete
    ensures c.code == 1 <==> RunAdditionalDelete in c.trace
    ensures c.code == 0 <==> deleteRc > 0
    ensures deleteRc > 0 ==> c.trace == [RunDelete]
    ensures deleteRc <= 0 ==> c.code == 1 && c.trace == [RunDelete, RunAdditionalDelete]
    ensures multiset(c.trace)[RunDelete] == 1
    ensures forall i :: 0 <= i < |c.trace| ==> IsCleanup(c.trace[i])
  {
    if deleteRc > 0 then Cleanup(0, [RunDelete])
    else Cleanup(1, [RunDelete, RunAdditionalDelete])
  }

  /** `main`: cleanup, the run, cleanup again; the cleanup results are ignored. */
  function Main(inputFile: string, o: Oracle): Report
  {
    var before := CleanFirmadyne(o.firstDeleteRc);
    var run := Firmadyne(inputFile, o);
    var after := CleanFirmadyne(o.secondDeleteRc);
    Report(run.dict, before.trace + run.trace + after.trace)
  }

  /** A command of the run proper: neither a cleanup script nor the report write. */
  predicate RunCommand(c: Command)
  {
    !IsCleanup(c) && !c.WriteResults?
  }

  /** Every command of `trace` belongs to the run proper. */
  predicate RunOnly(trace: seq<Command>)
  {
    forall i :: 0 <= i < |trace| ==> RunCommand(trace[i])
  }

  lemma RunOnlyAppend(a: seq<Command>, b: seq<Command>)
    requires RunOnly(a) && RunOnly(b)
    ensures RunOnly(a + b)
  {
    assert forall i :: |a| <= i < |a + b| ==> (a + b)[i] == b[i - |a|];
  }

  /** Preparation runs only its own five commands. */
  lemma PreparationRunOnly(inputFile: string, o: Oracle)
    ensures RunOnly(PrepareEmulation(inputFile, o, []).trace)
  {
    PrepareOnlyOwnCommands(inputFile, o, []);
    assert forall c :: c in PreparationCommands(inputFile) ==> RunCommand(c);
  }

  /** Emulation, probe and analysis are commands of the run proper. */
  lemma EmulationRunOnly(t: seq<Command>, target: Value, analysis: seq<Command>, report: Dict)
    requires RunOnly(t)
    requires analysis == [] || analysis == [RunAnalysis(report)]
    ensures RunOnly(t + [LaunchEmulation, Sleep(EmulationInitTime), Ping(target)] + analysis)
  {
    var probe := [LaunchEmulation, Sleep(EmulationInitTime), Ping(target)];
    RunOnlyAppend(t, probe);
    RunOnlyAppend(t + probe, analysis);
  }

  /** Coordination adds only commands of the run proper. */
  lemma CoordinateRunOnly(prep: Progress, o: Oracle)
    requires ReadyForEmulation(prep) && RunOnly(prep.trace)
    ensures RunOnly(Coordinate(prep, o).trace)
  {
    var x := Coordinate(prep, o);
    var analysis: seq<Command> :=
      if NetworkIsAvailable(o.pingRc, o.pingOutput) then [RunAnalysis(x.dict)] else [];
    CoordinateTrace(prep, o);
    EmulationRunOnly(prep.trace, Get(prep.dict, IpKey).value, analysis, x.dict);
  }

  /** `execute_firmadyne` itself neither cleans up nor writes the report. */
  lemma ExecuteCommands(inputFile: string, o: Oracle)
    ensures RunOnly(ExecuteFirmadyne(inputFile, o).trace)
  {
    PreparationRunOnly(inputFile, o);
    if FailingStage(inputFile, o) < 5 {
      ExecuteStopsAfterPreparation(inputFile, o);
    } else {
      PreparedForEmulation(inputFile, o);
      CoordinateRunOnly(PrepareEmulation(inputFile, o, []), o);
    }
  }

  /** The report write sits at position `k` of `t`, with exactly one delete.sh
      before it, a delete.sh right after it, exactly one delete.sh from there on,
      and nothing but cleanup commands after it. */
  predicate CleansAroundWrite(t: seq<Command>, report: Dict, k: int)
  {
    && 0 <= k < |t| - 1 && t[k] == WriteResults(report)
    && multiset(t[..k])[RunDelete] == 1
    && t[k + 1] == RunDelete && multiset(t[k + 1..])[RunDelete] == 1
    && forall j :: k < j < |t| ==> IsCleanup(t[j])
  }

  /** The run's own commands `run` occupy positions `b` to `b + |run| - 1` of `t`;
      only cleanup commands precede them, and the report write follows them
      directly, with the cleanup ordering of `CleansAroundWrite`. */
  predicate RunBetweenCleanups(t: seq<Command>, b: int, run: seq<Command>, report: Dict)
  {
    && 0 <= b && b + |run| < |t|
    && (forall j :: 0 <= j < b ==> IsCleanup(t[j]))
    && t[b..b + |run|] == run
    && CleansAroundWrite(t, report, b + |run|)
  }

  /** How often delete.sh and the report write occur around one run, given the
      cleanup traces `b` and `a` and the run's own commands `x`. */
  lemma CleanupCounts(b: seq<Command>, x: seq<Command>, report: Dict, a: seq<Command>)
    requires RunOnly(x)
    requires multiset(b)[RunDelete] == 1 && multiset(a)[RunDelete] == 1
    requires forall i :: 0 <= i < |b| ==> IsCleanup(b[i])
    requires forall i :: 0 <= i < |a| ==> IsCleanup(a[i])
    ensures multiset(b + (x + [WriteResults(report)]) + a)[RunDelete] == 2
    ensures multiset(b + (x + [WriteResults(report)]) + a)[WriteResults(report)] == 1
    ensures multiset(b + x)[RunDelete] == 1
  {
    assert multiset(b + (x + [WriteResults(report)]) + a) == multiset(b) + multiset(x) + multiset([WriteResults(report)]) + multiset(a);
    assert RunDelete !in x && WriteResults(report) !in x by {
      assert forall i :: 0 <= i < |x| ==> RunCommand(x[i]);
    }
    assert WriteResults(report) !in b by {
      assert forall i :: 0 <= i < |b| ==> b[i] != WriteResults(report);
    }
    assert WriteResults(report) !in a by {
      assert forall i :: 0 <= i < |a| ==> a[i] != WriteResults(report);
    }
  }

  /** Where everything sits in the trace of one run between two cleanups `b` and `a`. */
  lemma CleanupPositions(b: seq<Command>, x: seq<Command>, report: Dict, a: seq<Command>)
    requires multiset(b + x)[RunDelete] == 1 && multiset(a)[RunDelete] == 1
    requires forall i :: 0 <= i < |b| ==> IsCleanup(b[i])
    requires forall i :: 0 <= i < |a| ==> IsCleanup(a[i])
    requires |a| >= 1 && a[0] == RunDelete
    ensures var t := b + (x + [WriteResults(report)]) + a;
      && t[..|b|] == b
      && t[|b| + |x| + 1..] == a
      && RunBetweenCleanups(t, |b|, x, report)
  {
    var t := b + (x + [WriteResults(report)]) + a;
    var k := |b| + |x|;
    assert t[..k] == b + x;
    assert t[k + 1..] == a;
    assert t[..|b|] == b;
    assert t[|b|..k] == x;
    assert forall j :: k < j < |t| ==> t[j] == a[j - k - 1];
    assert forall j :: 0 <= j < |b| ==> t[j] == b[j];
  }

  /** The order of events around one run: cleanup first, the run's own commands
      unchanged, the report write, then cleanup again. */
  lemma CleanupAroundRun(before: Cleanup, x: seq<Command>, report: Dict, after: Cleanup)
    requires RunOnly(x)
    requires multiset(before.trace)[RunDelete] == 1 && multiset(after.trace)[RunDelete] == 1
    requires forall i :: 0 <= i < |before.trace| ==> IsCleanup(before.trace[i])
    requires forall i :: 0 <= i < |after.trace| ==> IsCleanup(after.trace[i])
    requires |before.trace| >= 1 && before.trace[0] == RunDelete
    requires |after.trace| >= 1 && after.trace[0] == RunDelete
    ensures var t := before.trace + (x + [WriteResults(report)]) + after.trace;
      && t[0] == RunDelete
      && multiset(t)[RunDelete] == 2
      && multiset(t)[WriteResults(report)] == 1
      && exists k :: CleansAroundWrite(t, report, k)
    ensures RunBetweenCleanups(before.trace + (x + [WriteResults(report)]) + after.trace, |before.trace|, x, report)
    ensures var t := before.trace + (x + [WriteResults(report)]) + after.trace;
      && t[..|before.trace|] == before.trace
      && t[|before.trace| + |x| + 1..] == after.trace
  {
    CleanupCounts(before.trace, x, report, after.trace);
    CleanupPositions(before.trace, x, report, after.trace);
    assert CleansAroundWrite(before.trace + (x + [WriteResults(report)]) + after.trace, report, |before.trace| + |x|);
  }

  /** Cleanup runs once before and once after the run: delete.sh is the first
      command and runs exactly twice, the report is written exactly once, delete.sh
      runs once before the write and once right after it, and only cleanup commands
      follow the write. */
  lemma MainCleansTwice(inputFile: string, o: Oracle)
    ensures var t := Main(inputFile, o).trace;
      && |t| >= 1 && t[0] == RunDelete
      && multiset(t)[RunDelete] == 2
      && multiset(t)[WriteResults(Main(inputFile, o).dict)] == 1
      && exists k :: CleansAroundWrite(t, Main(inputFile, o).dict, k)
    ensures RunBetweenCleanups(Main(inputFile, o).trace, |CleanFirmadyne(o.firstDeleteRc).trace|,
      ExecuteFirmadyne(inputFile, o).trace, Main(inputFile, o).dict)
    ensures Main(inputFile, o).trace[..|CleanFirmadyne(o.firstDeleteRc).trace|] == CleanFirmadyne(o.firstDeleteRc).trace
    ensures Main(inputFile, o).trace[|CleanFirmadyne(o.firstDeleteRc).trace| + |ExecuteFirmadyne(inputFile, o).trace| + 1..]
      == CleanFirmadyne(o.secondDeleteRc).trace
  {
    MainCounts(inputFile, o);
    MainBetween(inputFile, o);
    MainEnds(inputFile, o);
  }

  /** The counting part of `MainCleansTwice`. */
  lemma MainCounts(inputFile: string, o: Oracle)
    ensures var t := Main(inputFile, o).trace;
      && |t| >= 1 && t[0] == RunDelete
      && multiset(t)[RunDelete] == 2
      && multiset(t)[WriteResults(Main(inputFile, o).dict)] == 1
      && exists k :: CleansAroundWrite(t, Main(inputFile, o).dict, k)
  {
    MainAroundRun(inputFile, o);
    CleanupAroundRun(CleanFirmadyne(o.firstDeleteRc), ExecuteFirmadyne(inputFile, o).trace, Main(inputFile, o).dict,
      CleanFirmadyne(o.secondDeleteRc));
  }

  /** The run's commands sit between the two cleanups of `main`. */
  lemma MainBetween(inputFile: string, o: Oracle)
    ensures RunBetweenCleanups(Main(inputFile, o).trace, |CleanFirmadyne(o.firstDeleteRc).trace|,
      ExecuteFirmadyne(inputFile, o).trace, Main(inputFile, o).dict)
  {
    MainAroundRun(inputFile, o);
    CleanupAroundRun(CleanFirmadyne(o.firstDeleteRc), ExecuteFirmadyne(inputFile, o).trace, Main(inputFile, o).dict,
      CleanFirmadyne(o.secondDeleteRc));
  }

  /** `main` starts with the first cleanup and ends with the second. */
  lemma MainEnds(inputFile: string, o: Oracle)
    ensures Main(inputFile, o).trace[..|CleanFirmadyne(o.firstDeleteRc).trace|] == CleanFirmadyne(o.firstDeleteRc).trace
    ensures Main(inputFile, o).trace[|CleanFirmadyne(o.firstDeleteRc).trace| + |ExecuteFirmadyne(inputFile, o).trace| + 1..]
      == CleanFirmadyne(o.secondDeleteRc).trace
  {
    MainAroundRun(inputFile, o);
    CleanupAroundRun(CleanFirmadyne(o.firstDeleteRc), ExecuteFirmadyne(inputFile, o).trace, Main(inputFile, o).dict,
      CleanFirmadyne(o.secondDeleteRc));
  }

  /** The trace of `main` in terms of the run's own commands, which are run-only. */
  lemma MainAroundRun(inputFile: string, o: Oracle)
    ensures var before := CleanFirmadyne(o.firstDeleteRc);
      var x := ExecuteFirmadyne(inputFile, o).trace;
      var after := CleanFirmadyne(o.secondDeleteRc);
      && Main(inputFile, o).trace == before.trace + (x + [WriteResults(Main(inputFile, o).dict)]) + after.trace
      && RunOnly(x)
  {
    ExecuteCommands(inputFile, o);
  }

  /** A missing input file runs no pipeline command at all: the invocation runs only
      the cleanups and writes a report holding the extraction failure and the
      failure summary. */
  lemma MainMissingInput(inputFile: string, o: Oracle)
    requires !o.inputExists
    ensures Main(inputFile, o).trace ==
      CleanFirmadyne(o.firstDeleteRc).trace + [WriteResults(Main(inputFile, o).dict)] + CleanFirmadyne(o.secondDeleteRc).trace
    ensures Main(inputFile, o).dict ==
      [(ExtractionKey, Status(Failure)), (ErrorKey, Text(InvalidInputMessage)), (ResultKey, Text(FailureSummary))]
  {
    MissingInputFirmadyne(inputFile, o);
  }

  /** With a missing input, `firmadyne` only writes the failure report. */
  lemma MissingInputFirmadyne(inputFile: string, o: Oracle)
    requires !o.inputExists
    ensures Firmadyne(inputFile, o).trace == [WriteResults(Firmadyne(inputFile, o).dict)]
    ensures Firmadyne(inputFile, o).dict ==
      [(ExtractionKey, Status(Failure)), (ErrorKey, Text(InvalidInputMessage)), (ResultKey, Text(FailureSummary))]
  {
    var x := ExecuteFirmadyne(inputFile, o);
    MissingInputExecution(inputFile, o);
    FirmadyneSummary(inputFile, o);
    assert Firmadyne(inputFile, o).dict == x.dict + [(ResultKey, Text(FailureSummary))];
  }

  /** With a missing input the run stops at extraction having run nothing. */
  lemma MissingInputExecution(inputFile: string, o: Oracle)
    requires !o.inputExists
    ensures ExecuteFirmadyne(inputFile, o).trace == []
    ensures ExecuteFirmadyne(inputFile, o).status == Failure
    ensures ExecuteFirmadyne(inputFile, o).dict == [(ExtractionKey, Status(Failure)), (ErrorKey, Text(InvalidInputMessage))]
  {
    PrepareMissingInput(inputFile, o, []);
    assert FailingStage(inputFile, o) == 0;
    ExecuteStopsAfterPreparation(inputFile, o);
    PreparedDict(inputFile, o);
  }
}
